=== FILE: README.md ===
# Topology compiler: a Dafny model

The simulation repository describes a network experiment once, as a GraphML
topology, and derives three artifacts from it with three Python scripts:

- `generate_ns3_from_graph.py` writes an ns-3 C++ program. It puts the nodes
  in numeric-id order and builds one CSMA LAN per edge. Each edge gets a
  rate, a delay and a network, with defaults for any that are missing; the
  delay's unit suffix selects the ns-3 time constructor. A TAP bridge is
  bound to each end of each LAN, with a default device name
  `tap_<node index>_<edge index>`, and the TAP lines are grouped by node.
- `generate_zenoh_config.py` writes the Zenoh experiment configuration as
  JSON5 text. Every node becomes a router. It listens on one TCP endpoint
  per edge that touches it, on host `id + 1` of the edge's network and port
  `8000 + id`. Every edge becomes a link between the numeric ids of its
  ends.
- `graphml2png.py` writes Graphviz text: one line per node, labelled with
  its name, and one undirected line per edge, labelled with rate, delay and
  network. It also derives the default image name from the input path.

All three scripts share the same `parse_graphml` extraction. That step
resolves key declarations, builds node attribute dictionaries keyed by XML
id, and keeps edge dictionaries in document order.

The model is made of pure functions over immutable datatypes:

| module (file) | what it is |
|---|---|
| `Results` (results.dfy) | `Option`, `Result`, and the exceptions the generators raise (`ValueError` from `int()`, `KeyError`, `IndexError`) |
| `Strings` (strings.dfy) | `endswith`, a prefix test, `join`, `rstrip`, `split(c)[0]`, `rfind`, and the "append commas, then `rstrip(',')`" idiom |
| `Decimal` (decimal.dfy) | `int(s)` as a partial function, and `str(n)` |
| `OrderedDict` (ordered_dict.dfy) | Python's insertion-ordered `dict` as a sequence of pairs; re-assigning a key keeps its position |
| `StableSort` (stable_sort.dfy) | `sorted(..., key=int)`: a stable insertion sort, with a proof that the stable sorted order is unique |
| `Graph` (graph.dfy) | the graph, and `parse_graphml` starting from the element lists the XML library returns |
| `Ns3Gen`, `Ns3Properties` (ns3_gen.dfy, ns3_props.dfy) | `convert_delay_to_ns3` and `generate_ns3_code`: a structured `Ns3Program`, its C++ rendering, and its properties |
| `ZenohGen`, `ZenohProperties` (zenoh_gen.dfy, zenoh_props.dfy) | `extract_listen_endpoints`, `generate_zenoh_config` and the text of `write_json5_config`, with their properties |
| `DotGen`, `DotProperties` (dot_gen.dfy, dot_props.dfy) | `generate_dot`, the default output name of `graphml2png.py`, and their properties |
| `Triangle` (triangle.dfy) | the three-router triangle whose generated program is checked in as `topology/test/zenoh.cc` |
| `Consistency` (consistency.dfy) | how the ns-3 program and the Zenoh configuration of one graph relate |

The generators can fail, and each failure is a `Result` error. `int()`
rejects a node id. A link names a node key that does not exist. An edge
list that is not empty meets an empty node list in the ns-3 TAP section,
where `sorted_nodes[0]` raises. Every `main` turns any such exception into
exit status 1.

The two generators choose different default networks for an edge without a
`network` attribute. `generate_zenoh_config.py` (lines 79 and 91) always
falls back to `10.0.1.*`; `generate_ns3_from_graph.py` (line 130) puts edge
`i` on `10.0.{i+1}.*`. So for every edge after the first, the Zenoh endpoint
address lies outside that edge's ns-3 LAN.
`Consistency.DefaultNetworksAgreeOnlyOnFirstEdge` states this; the model keeps
each script's own default.

`generate_zid` computes an MD5 hash. The model takes it as a parameter
`zid: string -> string`.

## Model

| member | source | states |
|---|---|---|
| Results.ExitStatus | script/generate_zenoh_config.py:233-249 | the exit status is 0 exactly when generation succeeded, and 1 otherwise |
| Decimal.NatToString | script/generate_ns3_from_graph.py:167-168 | a natural number's decimal text is non-empty and all digits, reads back as the number, and has no leading zero |
| Decimal.ParseInt | script/generate_zenoh_config.py:83-84 | `int()` succeeds exactly on a non-empty digit string, or on `+` or `-` followed by a non-empty digit string; the value is the digits' value, negated after `-`; anything else (`""`, `"r1"`, `"+"`, `"-"`) raises |
| Decimal.ParseIntRejects | script/generate_zenoh_config.py:83 | the modelled `int()` fails on a string with a non-digit anywhere after its first character (Python's own `int()` also accepts surrounding whitespace and `_` separators, see Left out) |
| Decimal.IntToStringRoundTrip | script/generate_zenoh_config.py:83-84 | reading back the printed text gives the integer again, `int(str(i)) == i`, for every integer, negative ones included (CPython's 4300-digit limit is not modelled, see Left out) |
| Decimal.IntToStringInjective | script/generate_zenoh_config.py:83-84 | different integers print differently |
| Strings.RStrip | script/generate_zenoh_config.py:82 | `rstrip(c)` removes exactly the trailing run of `c`: the result is a prefix that does not end in `c`, and only `c` was removed |
| Strings.BeforeFirst | script/generate_zenoh_config.py:82 | `split(c)[0]` is the longest prefix without `c`, and `c` follows it when it is shorter than the input |
| Strings.RFind | script/graphml2png.py:173 | `rfind` gives the position of the last occurrence, or -1 exactly when the character is absent |
| Strings.TerminatedIsJoinPlusTerminator | script/generate_zenoh_config.py:172-182 | ending every part with a terminator equals joining the parts with it, plus one terminator |
| Strings.TrailingSeparatorStripped | script/generate_zenoh_config.py:184-198 | appending a comma to every block and then applying `rstrip(',')` gives the blocks joined by commas, with no trailing comma |
| OrderedDict.Get | script/generate_zenoh_config.py:135-136 | a lookup fails exactly when the key is absent, and otherwise returns a stored value |
| OrderedDict.Put | script/generate_ns3_from_graph.py:30-33 | assigning an existing key keeps the key order, and a new key is appended |
| OrderedDict.GetPut | script/generate_zenoh_config.py:124-131 | after `d[k] = v`, `d[k]` is `v` and every other key reads as before |
| OrderedDict.PutKeepsKeysUnique | script/generate_ns3_from_graph.py:30-33 | assignment never creates a duplicate key |
| OrderedDict.GetEntry | script/generate_zenoh_config.py:73 | in a dictionary, an entry's key reads that entry's value |
| OrderedDict.PutAppends | script/generate_zenoh_config.py:124 | assigning a new key appends exactly that pair |
| OrderedDict.PutKeys | script/generate_ns3_from_graph.py:33 | after an assignment, the keys are the old keys plus the assigned one |
| StableSort.Insert | script/generate_ns3_from_graph.py:78 | insertion adds exactly one item |
| StableSort.InsertSorted | script/generate_ns3_from_graph.py:78 | inserting into a sorted list keeps it sorted |
| StableSort.InsertWithKey | script/generate_ns3_from_graph.py:78 | an inserted item goes before every item with an equal key |
| StableSort.Sort | script/generate_ns3_from_graph.py:78 | `sorted` returns a permutation, ascending by key, and keeps the input order among equal keys |
| StableSort.SortedUnique | script/generate_ns3_from_graph.py:78 | two sorted arrangements that agree on the order within every key are equal, so the stable sort's output is unique |
| StableSort.SortOfSorted | script/generate_ns3_from_graph.py:78 | sorting a list already in key order returns it unchanged |
| Graph.KeyNames | script/generate_ns3_from_graph.py:21-27 | the key table of the `key` declarations; which ids it holds and which declaration wins are stated by `Graph.KeyNamesKeys` and `Graph.KeyNamesLastWins` |
| Graph.KeyNamesKeys | script/generate_ns3_from_graph.py:21-27 | the key table has an entry exactly for the ids of the key declarations |
| Graph.KeyNamesLastWins | script/generate_ns3_from_graph.py:21-27 | the last declaration of an id decides its attribute name |
| Graph.ApplyData | script/generate_ns3_from_graph.py:35-39 | the data loop keeps every initial attribute and adds the attribute of every declared data element |
| Graph.ApplyDataKeys | script/generate_ns3_from_graph.py:35-39 | an attribute is present after the data loop exactly when it was present before or a declared data element names it |
| Graph.ApplyDataKeeps | script/generate_ns3_from_graph.py:35-39 | an attribute that no declared data element names keeps its value |
| Graph.ApplyDataLastWins | script/generate_ns3_from_graph.py:35-39 | the last declared data element naming an attribute decides its value |
| Graph.UndeclaredDataIgnored | script/generate_ns3_from_graph.py:36-37 | a data element whose key is undeclared changes nothing |
| Graph.NodeIdAttribute | script/generate_ns3_from_graph.py:32-39 | a node's `id` attribute is its XML id unless a declared data element names `id`; if one does, the last such element decides it |
| Graph.NodeAttrs | script/generate_ns3_from_graph.py:33 | every node dictionary has an `id` attribute |
| Graph.NodeIds | script/generate_ns3_from_graph.py:31-32 | the XML ids of the node elements, in document order |
| Graph.ExtractNodes | script/generate_ns3_from_graph.py:30-39 | the node dictionary never repeats a key |
| Graph.ExtractNodesKeys | script/generate_ns3_from_graph.py:30-33 | the node dictionary's keys are exactly the XML ids of the node elements |
| Graph.NodeEntries | script/generate_ns3_from_graph.py:30-39 | each node element paired with its attributes, in document order |
| Graph.DistinctNodesInOrder | script/generate_ns3_from_graph.py:30-39 | when XML ids are distinct, the node dictionary lists every node in document order, each with its own attributes |
| Graph.FreshLastId | script/generate_ns3_from_graph.py:31-33 | when XML ids are distinct, the last node's id is not yet a key when it is stored |
| Graph.ExtractEdges | script/generate_ns3_from_graph.py:42-56 | there is one edge dictionary per edge element, in document order, each carrying id, source, target and its declared data |
| Graph.Extract | script/generate_ns3_from_graph.py:12-58 | the extracted graph has a node dictionary without repeated keys and as many edges as edge elements |
| Ns3Gen.ConvertDelay | script/generate_ns3_from_graph.py:61-71 | a delay ending in `s` is split exactly into amount plus unit suffix; any other delay is milliseconds of the whole text; seconds are chosen only when neither `ms` nor `us` ends the text |
| Ns3Gen.DelayMilliseconds | script/generate_ns3_from_graph.py:63-64 | `<x>ms` is `MilliSeconds(<x>)`, so `5ms` is never read as seconds |
| Ns3Gen.DelayMicroseconds | script/generate_ns3_from_graph.py:65-66 | `<x>us` is `MicroSeconds(<x>)` |
| Ns3Gen.DelaySeconds | script/generate_ns3_from_graph.py:67-68 | any other `s` suffix is `Seconds` with one character stripped |
| Ns3Gen.NodeSortKey | script/generate_ns3_from_graph.py:78 | a node's sort key is `int()` of its `id` attribute, and it fails exactly when `int()` does; a node without `id` gets the default key 0 |
| Ns3Gen.KeyNodes | script/generate_ns3_from_graph.py:78 | computing the keys fails exactly when some node's key fails; otherwise every node is paired with its key, in dictionary order |
| Ns3Gen.SortedNodes | script/generate_ns3_from_graph.py:77-79 | the sorted nodes are a permutation of the nodes, as many as there are nodes, ascending by numeric id, and in dictionary order among equal ids |
| Ns3Gen.Find | script/generate_ns3_from_graph.py:111-118 | the search returns the first position holding the key, or nothing when no position holds it |
| Ns3Gen.NodeIndex | script/generate_ns3_from_graph.py:111-126 | an endpoint's index is the first sorted position with its key, or 0 when no node has that key |
| Ns3Gen.Lan | script/generate_ns3_from_graph.py:109-137 | the CSMA block of edge `i`: LAN number `i+1`, the edge's rate, delay and network with their defaults, and the node indices of its ends; `Ns3Properties.LanDefaults` states the defaults and `Ns3Properties.Ns3Layout` that block `i` belongs to edge `i` |
| Ns3Gen.DefaultTapName | script/generate_ns3_from_graph.py:167-168 | the default device name `tap_<node index>_<edge index>`; `Ns3Properties.DefaultTapNameInjective` states that it determines both indices |
| Ns3Gen.EdgeTaps | script/generate_ns3_from_graph.py:149-180 | each edge contributes exactly two TAP lines; `Ns3Properties.EdgeTapNames` states their device names and `Ns3Properties.TapLinesOfEdges` their node, LAN and end |
| Ns3Gen.AllTapsAt | script/generate_ns3_from_graph.py:149-180 | the TAP lines of edge `i` are at positions `2i` (source end) and `2i+1` (target end) |
| Ns3Gen.AllTapsIndexBound | script/generate_ns3_from_graph.py:150-165 | every TAP line's node index is a node position, or the fallback 0 |
| Ns3Gen.SelectMembers | script/generate_ns3_from_graph.py:170-180 | a node's lines are exactly the TAP lines that carry its index |
| Ns3Gen.GroupTaps | script/generate_ns3_from_graph.py:170-180 | `node_taps` has an entry exactly for the nodes that have lines, each entry holding that node's lines in edge order |
| Ns3Gen.GroupTapsKeys | script/generate_ns3_from_graph.py:170-180 | a node has a group exactly when some TAP line is for it |
| Ns3Gen.AscendingKeys | script/generate_ns3_from_graph.py:183 | `sorted(node_taps.keys())` lists exactly the keys in range, strictly ascending |
| Ns3Gen.TapGroups | script/generate_ns3_from_graph.py:183-187 | the group loop fails exactly when some node index is past the end of the node list; otherwise each group carries its node's name and lines |
| Ns3Gen.NodeNames | script/generate_ns3_from_graph.py:104 | the node comment gives each sorted node's `name`, or `node<i>` |
| Ns3Gen.Lans | script/generate_ns3_from_graph.py:109-137 | there is one LAN block per edge, in edge order |
| Ns3Gen.GenerateNs3 | script/generate_ns3_from_graph.py:74-197 | `generate_ns3_code` up to its text; when it fails is stated by `Ns3Properties.Ns3Outcome`, its nodes and LANs by `Ns3Properties.Ns3Layout`, its TAP section by `Ns3Properties.Ns3TapGroups` |
| Ns3Gen.RenderNs3 | script/generate_ns3_from_graph.py:81-197 | the C++ text of a program; `Ns3Properties.Ns3Frame` states that it opens with the includes, `main` set-up and node declaration and ends with the simulation run |
| Ns3Properties.GroupLinesOutcome | script/generate_ns3_from_graph.py:183-184 | grouping fails exactly when some line's node index is past the end of the node list |
| Ns3Properties.AllTapsBounded | script/generate_ns3_from_graph.py:149-165 | every TAP line names a node position, or 0 |
| Ns3Properties.TapGroupsOutcome | script/generate_ns3_from_graph.py:147-187 | the TAP section fails exactly when there are edges but no nodes |
| Ns3Properties.Ns3Outcome | script/generate_ns3_from_graph.py:77-187 | generation fails exactly when some node id is not an integer, or when there are edges but no nodes |
| Ns3Properties.Ns3ExitStatus | script/generate_ns3_from_graph.py:221-228 | `main` exits with status 1 exactly when some node's `id` is not an integer, or there are edges but no nodes |
| Ns3Properties.Ns3Layout | script/generate_ns3_from_graph.py:77-137 | the program has one node per graph node, node names in sorted order, and exactly one LAN block per edge; edge `i` gets block `csma{i+1}`/`d{i+1}` |
| Ns3Properties.LanDefaults | script/generate_ns3_from_graph.py:128-130 | missing attributes default to `100Mbps`, `1ms` and `10.0.{i+1}.*` |
| Ns3Properties.DefaultTapNameInjective | script/generate_ns3_from_graph.py:167-168 | two default TAP names are equal exactly when both node index and edge index are equal |
| Ns3Properties.DefaultTapNamesOfDistinctEdgesDiffer | script/generate_ns3_from_graph.py:167-168 | default names from different edges never collide |
| Ns3Properties.EdgeTapNames | script/generate_ns3_from_graph.py:167-168 | an explicit `tap_device_a`/`tap_device_b` overrides the default name; without them, the two ends' names collide exactly when both ends resolve to the same node index |
| Ns3Properties.GroupLinesCover | script/generate_ns3_from_graph.py:170-187 | every TAP line's node has a group |
| Ns3Properties.GroupLinesCount | script/generate_ns3_from_graph.py:170-187 | the groups hold as many lines as were produced |
| Ns3Properties.GroupLinesShape | script/generate_ns3_from_graph.py:170-187 | groups come in ascending node index, one per node with lines; each holds exactly that node's lines in edge order, and together they hold every line |
| Ns3Properties.TapGroupsShape | script/generate_ns3_from_graph.py:147-187 | the TAP section is grouped by node and holds `2 * |edges|` lines |
| Ns3Properties.TapLinesOfEdges | script/generate_ns3_from_graph.py:149-180 | edge `i` adds one line for its source node on `d{i+1}.Get(0)` and one for its target node on `d{i+1}.Get(1)` |
| Ns3Properties.Ns3TapGroups | script/generate_ns3_from_graph.py:147-187 | in a generated program, TAP groups are in ascending node index, each holds its node's lines in edge order, and there are `2 * |edges|` lines in all |
| Ns3Properties.Ns3Frame | script/generate_ns3_from_graph.py:81-197 | the text starts with the fixed preamble and the node declaration (node count in the comment and in `n.Create`, names joined by `, `) and ends with the simulation run and `return 0;` |
| ZenohGen.BaseIp | script/generate_zenoh_config.py:82 | the base address is a prefix of the pattern, contains no `*`, and does not end in `.` |
| ZenohGen.BaseIpOfPattern | script/generate_zenoh_config.py:81-82 | the base address of `<prefix>.*` is `<prefix>` |
| ZenohGen.Incident | script/generate_zenoh_config.py:75-88 | the edges considered for a node are exactly those where it is source or target |
| ZenohGen.EdgeEndpoints | script/generate_zenoh_config.py:79-86 | one endpoint per edge given, in order |
| ZenohGen.EndpointsFor | script/generate_zenoh_config.py:75-98 | endpoint derivation fails exactly when the node has an edge and its id text is not an integer, and then with that text |
| ZenohGen.EndpointsForValue | script/generate_zenoh_config.py:75-98 | a node gets one endpoint per edge that touches it, in edge order |
| ZenohGen.ListenEndpoints | script/generate_zenoh_config.py:70-100 | `extract_listen_endpoints`; `ZenohProperties.ListenEndpointsOfEntry` states that a node's endpoints come from its `id` attribute, one per incident edge, and `ZenohProperties.EndpointPorts` their port |
| ZenohGen.IdTextOf | script/generate_zenoh_config.py:73 | `nodes[node_id]` fails exactly when the key is not a node |
| ZenohGen.IdTexts | script/generate_zenoh_config.py:119 | the numeric id texts of the nodes, in order |
| ZenohGen.NodeTable | script/generate_zenoh_config.py:118-131 | the node table never repeats a key |
| ZenohGen.NodeTableKeys | script/generate_zenoh_config.py:118-124 | there is one node entry per distinct numeric id text |
| ZenohGen.LinkOf | script/generate_zenoh_config.py:134-147 | every link has `a_idx` and `b_idx` equal to 0 |
| ZenohGen.Links | script/generate_zenoh_config.py:134-147 | the link loop fails exactly when one edge's link does; otherwise there is one link per edge, in order |
| ZenohGen.GenerateZenoh | script/generate_zenoh_config.py:103-149 | `generate_zenoh_config`; when it fails is stated by `ZenohProperties.ZenohOutcome`, its fixed fields and node table by `ZenohProperties.ZenohNodes`, its links by `ZenohProperties.ZenohLinks` |
| ZenohGen.QuotedEndpoints | script/generate_zenoh_config.py:173 | each endpoint is written as quoted `tcp/<ip>:<port>` text, in order |
| ZenohGen.RenderJson5 | script/generate_zenoh_config.py:159-202 | the JSON5 text of `write_json5_config`; `ZenohProperties.RenderJson5Joined` states that it is the header, the comma-joined node and link blocks and the closing |
| ZenohProperties.EndpointAddress | script/generate_zenoh_config.py:79-86 | on network `<prefix>.*`, the node with id `n` listens on `<prefix>.<n+1>`, port `8000+n` |
| ZenohProperties.DefaultBaseIp | script/generate_zenoh_config.py:79-82 | the default network `10.0.1.*` has base address `10.0.1` |
| ZenohProperties.DefaultEndpointAddress | script/generate_zenoh_config.py:79-86 | without a `network` attribute the endpoint is `10.0.1.<n+1>`, port `8000+n` |
| ZenohProperties.SelfLoopOneEndpoint | script/generate_zenoh_config.py:76-98 | a self-loop contributes one endpoint, not two, because of the `elif` |
| ZenohProperties.EndpointPorts | script/generate_zenoh_config.py:84-96 | every endpoint of a node has port `8000 + id`, whatever the edge |
| ZenohProperties.ListenEndpointsOfEntry | script/generate_zenoh_config.py:70-73 | a node's endpoints are derived from its own id text |
| ZenohProperties.NodeTableOutcome | script/generate_zenoh_config.py:118-122 | the node loop fails exactly when some node with an edge has an id text `int()` rejects |
| ZenohProperties.IdsParseSnoc | script/generate_zenoh_config.py:118-122 | the node loop's success condition for one more node is the old condition plus that node's |
| ZenohProperties.LinkOfOutcome | script/generate_zenoh_config.py:134-140 | once the node loop has succeeded, a link fails exactly when one of its ends is not a node |
| ZenohProperties.EndListens | script/generate_zenoh_config.py:139-140 | the recomputed endpoint list of an existing edge end cannot fail once the node loop has succeeded |
| ZenohProperties.ZenohOutcome | script/generate_zenoh_config.py:118-140 | configuration fails exactly when a node with an edge has a non-integer id, or an edge end is not a node |
| ZenohProperties.ZenohExitStatus | script/generate_zenoh_config.py:233-249 | `main` exits with status 1 exactly when a node touched by an edge has a non-integer `id`, or an edge names a node that does not exist |
| ZenohProperties.NodeTableLastWins | script/generate_zenoh_config.py:124-131 | under a repeated id text, the entry of the last node with that id is kept |
| ZenohProperties.NodeTableInOrder | script/generate_zenoh_config.py:118-131 | when id texts are distinct, the node table lists every node in dictionary order |
| ZenohProperties.NodeTableAppends | script/generate_zenoh_config.py:124 | a node with a new id text is appended to the node table |
| ZenohProperties.InOrderSnoc | script/generate_zenoh_config.py:118-131 | appending the last node's entry to an in-order table of the earlier nodes keeps the table in order |
| ZenohProperties.ZenohNodes | script/generate_zenoh_config.py:106-131 | the fixed fields are set, the node table has one entry per distinct id text, and each entry is a router with `zid.set` true, the zid of its node key, and that node's endpoints |
| ZenohProperties.LinkOfValue | script/generate_zenoh_config.py:135-147 | a link joins the id texts of its source and target nodes, with index 0 on both sides |
| ZenohProperties.ZenohLinks | script/generate_zenoh_config.py:134-147 | there is one link per edge, in edge order, from the source's id text to the target's |
| ZenohProperties.RenderJson5Joined | script/generate_zenoh_config.py:159-202 | the JSON5 text is the header, the node blocks separated by commas, the middle, the link lines separated by commas, and the footer, so neither list has a trailing comma |
| DotGen.EdgeLabels | script/graphml2png.py:101-107 | label parts are Rate, Delay and Net, in that order, each present only when its attribute is |
| DotGen.BuildDot | script/graphml2png.py:88-114 | there is one node per dictionary entry and one edge per edge, in order; a node is labelled with its `name`, or with its key |
| DotGen.GenerateDot | script/graphml2png.py:63-118 | `generate_dot`; `DotProperties.DotFrame` states its header and closing, `DotProperties.DotNodeLine` and `DotProperties.DotEdgeLine` the place of each node and edge line |
| DotGen.DefaultOutputName | script/graphml2png.py:172-174 | the default image name; `DotProperties.DefaultOutputNameOf` states that `<dir>/<base>.<ext>` gives `<base>.<format>` |
| DotGen.PathName | script/graphml2png.py:173 | a path's name contains no `/` and is never `.` |
| DotGen.Stem | script/graphml2png.py:173 | the stem is a prefix of the name, cut at the last dot only when that dot is neither the first nor the last character |
| DotProperties.LabelEmptyIff | script/graphml2png.py:101-111 | the label is empty exactly when the edge has none of `datarate`, `delay` and `network` |
| DotProperties.EdgeLineForm | script/graphml2png.py:109-114 | an edge without those attributes gets no `label` attribute, and any other edge gets the joined label |
| DotProperties.FullLabel | script/graphml2png.py:101-109 | with all three attributes, the label is `Rate: r\nDelay: d\nNet: n` with a literal backslash-n |
| DotProperties.NodeLinesAppend | script/graphml2png.py:89-91 | the node lines of two node lists in sequence are concatenated |
| DotProperties.EdgeLinesAppend | script/graphml2png.py:96-114 | the edge lines of two edge lists in sequence are concatenated |
| DotProperties.RenderFrame | script/graphml2png.py:66-116 | the text starts with the header and ends with `}\n` |
| DotProperties.DotFrame | script/graphml2png.py:63-118 | the text opens with the graph header carrying `layout` and `dpi` verbatim and ends with `}\n` |
| DotProperties.DotNodeLine | script/graphml2png.py:89-91 | node `i`'s line sits between the lines of earlier and later nodes |
| DotProperties.DotEdgeLine | script/graphml2png.py:96-114 | edge `j`'s line sits between the lines of earlier and later edges |
| DotProperties.PathNameOfFile | script/graphml2png.py:173 | the name of `<dir>/<file>`, and of a bare `<file>`, is `<file>` |
| DotProperties.PathNameTrailingSlash | script/graphml2png.py:173 | a trailing slash does not change the name |
| DotProperties.StemOfDotted | script/graphml2png.py:173 | the stem of `<base>.<ext>` is `<base>` |
| DotProperties.StemUndotted | script/graphml2png.py:173 | a name without a dot, or whose only dot is its first character, is its own stem |
| DotProperties.DefaultOutputNameOf | script/graphml2png.py:172-174 | for `<dir>/<base>.<ext>`, the default image name is `<base>.<format>` |
| Consistency.DefaultNetworksAgreeOnlyOnFirstEdge | script/generate_ns3_from_graph.py:130 | for an edge without `network`, the ns-3 LAN of edge `i` is `10.0.1.*`, the Zenoh default, exactly when `i == 0` |
| Triangle.TriangleKeys | topology/test/zenoh.cc:22-24 | every router's sort key is its numeric id 1, 2 or 3 |
| Triangle.TriangleSorted | topology/test/zenoh.cc:22-24 | sorting keeps the routers in the order r1, r2, r3 |
| Triangle.SortedNodesOfSorted | script/generate_ns3_from_graph.py:78 | nodes whose keys already ascend come out of the sort unchanged |
| Triangle.TriangleIndices | topology/test/zenoh.cc:30-42 | r1, r2 and r3 sit at positions 0, 1 and 2 |
| Triangle.TriangleLan0 | topology/test/zenoh.cc:26-30 | LAN 1 is `10.0.1.*`, r1-r2, 100Mbps, `MilliSeconds(1)`, `n.Get(0)`-`n.Get(1)` |
| Triangle.TriangleLan1 | topology/test/zenoh.cc:32-36 | LAN 2 is `10.0.2.*`, r1-r3, 10Mbps, `MilliSeconds(5)`, `n.Get(0)`-`n.Get(2)` |
| Triangle.TriangleLan2 | topology/test/zenoh.cc:38-42 | LAN 3 is `10.0.3.*`, r2-r3, 50Mbps, `MilliSeconds(2)`, `n.Get(1)`-`n.Get(2)` |
| Triangle.TriangleLans | topology/test/zenoh.cc:26-42 | the three LAN blocks, in edge order |
| Triangle.TriangleTaps | topology/test/zenoh.cc:49-56 | the six TAP lines with their explicit device names, two per edge |
| Triangle.TriangleSelect | topology/test/zenoh.cc:48-56 | each router owns exactly two TAP lines, in edge order |
| Triangle.TriangleGroups | topology/test/zenoh.cc:48-56 | the TAP section is three groups, r1, r2 and r3 in that order, each with the two lines of the links the router is on |
| Triangle.TriangleNodeNames | topology/test/zenoh.cc:24 | the node comment reads r1, r2, r3 |
| Triangle.TriangleProgram | topology/test/zenoh.cc:22-56 | the triangle's program has three nodes named r1, r2 and r3, the three LANs, and the three TAP groups |

## Left out

- XML parsing (`ET.parse`, namespaces, `findall`) is a library call. The model starts from the key, node and edge element lists in document order.
- A `data` element with no text gives `None` in Python. The model always has a string there.
- An edge element without `source` or `target` would give `None` there. The model's edges always carry both.
- A `key` element without `attr.name`, or a node or edge element without `id`, gives `None` in Python. The model always has a string there. No generator depends on it: an edge's `id` is never read, and no attribute named `None` is ever looked up.
- File reads and writes, `argparse`, the existence check on the input file, printing, and the `main` functions are left out. The default experiment name and the default output paths are left out too. `Results.ExitStatus` stands in for the exit status.
- `generate_zid` hashes with MD5. It is a parameter `zid: string -> string`, applied to the node key.
- `check_graphviz` and `generate_png` run subprocesses and use temporary files, so they are left out.
- `json.dumps` in `write_json5_config` builds a string that is never used, so it is left out.
- In `extract_listen_endpoints`, the `tap_device` values are read and never used, so they are left out.
- `node_name` in `generate_zenoh_config` is computed and never used, so it is left out.
- Decimal.ParseInt: the model accepts only an optional sign followed by ASCII digits. Python's `int()` also accepts surrounding whitespace, digit-group underscores and non-ASCII digits; those inputs, which `int()` reads and the model rejects, are not modelled. The model's `int()` and `str()` also have no length limit: since Python 3.11 (and the matching security releases of 3.10, 3.9 and 3.8), CPython raises `ValueError` when converting a decimal string of more than 4300 digits, in either direction. That error is not modelled, and every contract that says something fails exactly when `int()` does inherits this gap.
- Decimal.ParseIntRejects: stated of the modelled `int()`. Python's `int()` accepts `"1 "` and `"1_0"`, which this lemma rejects.
- Decimal.IntToStringRoundTrip: holds for every integer in the model. In CPython 3.11 and later, `str()` of an integer with more than 4300 digits raises instead.
- Ns3Gen.AscendingKeys: `sorted(node_taps.keys())` is modelled as a scan of the indices 0 to the node count. Every key is a node position or the fallback 0, so the scan yields the same list.
- Ns3Gen.RenderNs3: the C++ text is defined template by template from the structured program. Properties are proved on the structure; of the text, only its opening and closing are stated, by `Ns3Properties.Ns3Frame`.
- Triangle.TriangleProgram: the triangle is checked against `topology/test/zenoh.cc` at the level of the structured program, not its rendered text. The input graph is reconstructed from that output, because the GraphML file is not part of this model.
- ZenohProperties.ZenohOutcome: this lemma and the other whole-graph Zenoh lemmas assume the node dictionary has no repeated key. Every Python `dict` has this property, and so does every graph `Graph.Extract` returns.
- ZenohProperties.ZenohExitStatus: stated, like `ZenohProperties.ZenohOutcome`, for node dictionaries without a repeated key.
- Graph.DistinctNodesInOrder: order is stated only for distinct XML ids. With repeated ids, `Graph.ExtractNodesKeys` states which keys there are, and `OrderedDict.Put` states where a repeated key stays.
- ZenohProperties.NodeTableInOrder: order is stated only for distinct numeric id texts. With repeated ones, `ZenohProperties.NodeTableLastWins` states which entry is kept.
- DotGen.PathName: this follows POSIX path rules, as `Path` does on Linux. Windows drive and backslash handling is not modelled.
- DotGen.Stem: this is `PurePath.stem` as in Python up to 3.13. Python 3.14 changed the rule for names ending in a dot or starting with several dots: there the stem of `foo.` is `foo` (it was `foo.`), and the stem of `..foo` is `..foo` (it was `.`).
- The interface provisioning and the orchestration around the simulation are not part of this model.

=== FILE: consistency.dfy ===
/** How the ns-3 program and the Zenoh configuration, generated from the
    same graph, relate to each other. */
module Consistency {
  import opened Decimal
  import opened StableSort
  import opened Graph
  import Ns3Gen
  import ZenohGen
  import Ns3Properties

  /** `10.0.<x>.*` is `10.0.1.*` only for `x == "1"`. */
  lemma ThirdComponent(x: string)
    requires "10.0." + x + ".*" == "10.0.1.*"
    ensures x == "1"
  {
    var network := "10.0." + x + ".*";
    assert x == network[5..|network| - 2];
  }

  /** For an edge without a `network` attribute, the Zenoh generator always
      falls back to `10.0.1.*` (see `ZenohProperties.DefaultEndpointAddress`),
      while the ns-3 generator puts edge `i` on `10.0.{i+1}.*`. The two agree
      only for the first edge, so for every later edge the Zenoh endpoint lies
      outside that edge's ns-3 LAN. */
  lemma DefaultNetworksAgreeOnlyOnFirstEdge(i: nat, e: EdgeAttrs, sorted: seq<Keyed<Ns3Gen.NodeEntry>>)
    requires "network" !in e
    ensures Ns3Gen.Lan(i, e, sorted).network == ZenohGen.DefaultNetwork <==> i == 0
  {
    Ns3Properties.LanDefaults(i, e, sorted);
    var x := NatToString(i + 1);
    if "10.0." + x + ".*" == "10.0.1.*" {
      ThirdComponent(x);
      assert DigitsValue(x) == 1;
    }
  }
}

=== FILE: decimal.dfy ===
/** Decimal integers as the generators read and write them: Python's `int(s)`
    on a string and `str(n)` / f-string formatting of an `int`.

    `int(s)` is partial: it accepts an optional sign followed by decimal
    digits and raises `ValueError` on anything else.
 */
module Decimal {
  import opened Results

  predicate IsDigit(c: char) {
    '0' <= c <= '9'
  }

  predicate AllDigits(s: string) {
    forall i :: 0 <= i < |s| ==> IsDigit(s[i])
  }

  function DigitValue(c: char): (d: nat)
    requires IsDigit(c)
    ensures d < 10
  {
    c as int - '0' as int
  }

  function DigitChar(d: nat): (c: char)
    requires d < 10
    ensures IsDigit(c) && DigitValue(c) == d
  {
    ('0' as int + d) as char
  }

  /** The value of a string of decimal digits, most significant first. */
  function DigitsValue(s: string): nat
    requires AllDigits(s)
  {
    if |s| == 0 then 0 else DigitsValue(s[..|s| - 1]) * 10 + DigitValue(s[|s| - 1])
  }

  /** `str(n)` for a non-negative integer: shortest decimal spelling, which
      reads back as `n`. */
  function NatToString(n: nat): (r: string)
    ensures |r| > 0 && AllDigits(r)
    ensures DigitsValue(r) == n
    ensures r[0] == '0' ==> n == 0 && |r| == 1
  {
    if n < 10 then [DigitChar(n)]
    else
      var prefix := NatToString(n / 10);
      var r := prefix + [DigitChar(n % 10)];
      assert r[..|r| - 1] == prefix;
      r
  }

  /** `str(i)` for any integer: a minus sign for negative values. */
  function IntToString(i: int): (r: string)
    ensures |r| > 0
    ensures i >= 0 ==> AllDigits(r)
  {
    if i < 0 then "-" + NatToString(-i) else NatToString(i)
  }

  /** `int(s)`: an optional `+` or `-` followed by at least one digit;
      `None` models the `ValueError` raised on anything else. */
  function ParseInt(s: string): (r: Option<int>)
    ensures r.Some? <==>
      (|s| > 0 && AllDigits(s)) || (|s| > 1 && (s[0] == '+' || s[0] == '-') && AllDigits(s[1..]))
    ensures |s| > 0 && AllDigits(s) ==> r == Some(DigitsValue(s))
    ensures |s| > 1 && s[0] == '+' && AllDigits(s[1..]) ==> r == Some(DigitsValue(s[1..]))
    ensures |s| > 1 && s[0] == '-' && AllDigits(s[1..]) ==> r == Some(-(DigitsValue(s[1..]) as int))
  {
    if |s| > 0 && (s[0] == '+' || s[0] == '-') then
      var body := s[1..];
      if |body| > 0 && AllDigits(body) then
        var magnitude: int := DigitsValue(body);
        Some(if s[0] == '-' then -magnitude else magnitude)
      else None
    else if |s| > 0 && AllDigits(s) then Some(DigitsValue(s))
    else None
  }

  /** `int()` rejects a non-digit anywhere after the first character. */
  lemma ParseIntRejects(s: string, i: nat)
    requires 0 < i < |s| && !IsDigit(s[i])
    ensures ParseInt(s) == None
  {
    if s[0] == '+' || s[0] == '-' {
      assert s[1..][i - 1] == s[i];
    }
  }

  /** `int(str(i)) == i`: printing and reading back are inverse. */
  lemma IntToStringRoundTrip(i: int)
    ensures ParseInt(IntToString(i)) == Some(i)
  {
    if i < 0 {
      var digits := NatToString(-i);
      assert ("-" + digits)[1..] == digits;
    }
  }

  /** Distinct integers print differently. */
  lemma IntToStringInjective(a: int, b: int)
    requires IntToString(a) == IntToString(b)
    ensures a == b
  {
    IntToStringRoundTrip(a);
    IntToStringRoundTrip(b);
  }

  /** Decimal strings of naturals contain only digits, so in particular
      no underscore. */
  lemma NatToStringHasNo(n: nat, c: char)
    requires !IsDigit(c)
    ensures c !in NatToString(n)
  {
  }
}

=== FILE: dot_gen.dfy ===
/** `graphml2png.py`: the Graphviz text `generate_dot` writes for a
    topology, and the image file name `main` picks when none is given.

    Nodes are written with their dictionary key as the Graphviz identifier
    and their `name` attribute (or the key) as label; edges are undirected
    `--` lines whose label lists the rate, delay and network of the edge.
 */
module DotGen {
  import opened Strings
  import opened Decimal
  import opened Graph

  datatype DotNode = DotNode(id: string, name: string)

  /** `labels` are the label parts, joined by a literal backslash-n. */
  datatype DotEdge = DotEdge(source: string, target: string, labels: seq<string>)

  datatype DotGraph = DotGraph(layout: string, dpi: int, nodes: seq<DotNode>, edges: seq<DotEdge>)

  /** The two characters `\` and `n`, which Graphviz reads as a line break
      inside a label. */
  const LabelBreak: string := "\\n"

  /** The label parts of one edge: `Rate: `, `Delay: ` and `Net: `, in that
      order, each only when its attribute is present. */
  function EdgeLabels(e: EdgeAttrs): (r: seq<string>)
    ensures |r| == (if "datarate" in e then 1 else 0) + (if "delay" in e then 1 else 0) + (if "network" in e then 1 else 0)
    ensures "datarate" in e ==> r[0] == "Rate: " + e["datarate"]
    ensures "delay" in e ==> r[if "datarate" in e then 1 else 0] == "Delay: " + e["delay"]
    ensures "network" in e ==> r[|r| - 1] == "Net: " + e["network"]
    ensures forall i :: 0 <= i < |r| ==> |r[i]| > 0
  {
    (if "datarate" in e then ["Rate: " + e["datarate"]] else [])
    + (if "delay" in e then ["Delay: " + e["delay"]] else [])
    + (if "network" in e then ["Net: " + e["network"]] else [])
  }

  function NodeOf(entry: (string, Attrs)): DotNode {
    DotNode(entry.0, AttrOr(entry.1, "name", entry.0))
  }

  function EdgeOf(e: EdgeAttrs): DotEdge {
    DotEdge(Source(e), Target(e), EdgeLabels(e))
  }

  /** `generate_dot` up to the text: one node per dictionary entry and one
      edge per edge, both in order. */
  function BuildDot(g: Graph, layout: string, dpi: int): (d: DotGraph)
    ensures d.layout == layout && d.dpi == dpi
    ensures |d.nodes| == |g.nodes| && |d.edges| == |g.edges|
    ensures forall i :: 0 <= i < |g.nodes| ==>
      d.nodes[i].id == g.nodes[i].0 &&
      d.nodes[i].name == (if "name" in g.nodes[i].1 then g.nodes[i].1["name"] else g.nodes[i].0)
    ensures forall j :: 0 <= j < |g.edges| ==>
      d.edges[j].source == Source(g.edges[j]) && d.edges[j].target == Target(g.edges[j]) &&
      d.edges[j].labels == EdgeLabels(g.edges[j])
  {
    DotGraph(layout, dpi,
      seq(|g.nodes|, i requires 0 <= i < |g.nodes| => NodeOf(g.nodes[i])),
      seq(|g.edges|, j requires 0 <= j < |g.edges| => EdgeOf(g.edges[j])))
  }

  // ---- the text ----

  /** The first lines of the text, the only ones that depend on the
      arguments. */
  function Opening(layout: string, dpi: int): string {
    "graph network_topology {\n    // Graph attributes\n    layout=" + layout + ";\n    dpi=" + IntToString(dpi) + ";\n"
  }

  /** The fixed graph, node and edge attributes, up to the node list. */
  const Styles: string :=
    "    size=\"10,8!\";\n"
    + "    ratio=fill;\n"
    + "    overlap=false;\n"
    + "    splines=true;\n"
    + "    sep=\"+20,20\";\n"
    + "    esep=\"+10,10\";\n"
    + "    nodesep=1.5;\n"
    + "    ranksep=2.0;\n"
    + "\n"
    + "    // Node and edge styling\n"
    + "    node [shape=circle, style=filled, fillcolor=lightblue, fontsize=14,\n"
    + "          width=1.2, height=1.2, fixedsize=true, penwidth=2];\n"
    + "    edge [fontsize=11, color=darkblue, penwidth=2, labeldistance=2.5,\n"
    + "          labelangle=0, labelfloat=true];\n"
    + "\n"
    + "    // Nodes\n"

  function NodeLine(n: DotNode): string {
    "    " + n.id + " [label=\"" + n.name + "\"];\n"
  }

  /** An edge line carries a `label` attribute only when the label text is
      not empty. */
  function EdgeLine(e: DotEdge): string {
    var text := Join(e.labels, LabelBreak);
    if text != "" then "    " + e.source + " -- " + e.target + " [label=\"" + text + "\"];\n"
    else "    " + e.source + " -- " + e.target + ";\n"
  }

  function NodeLines(ns: seq<DotNode>): string {
    if |ns| == 0 then "" else NodeLine(ns[0]) + NodeLines(ns[1..])
  }

  function EdgeLines(es: seq<DotEdge>): string {
    if |es| == 0 then "" else EdgeLine(es[0]) + EdgeLines(es[1..])
  }

  const EdgesComment: string := "\n    // Edges\n"

  const Trailer: string := "}\n"

  function RenderDot(d: DotGraph): string {
    Opening(d.layout, d.dpi) + Styles + NodeLines(d.nodes) + EdgesComment + EdgeLines(d.edges) + Trailer
  }

  /** `generate_dot(nodes, edges, layout, dpi)` */
  function GenerateDot(g: Graph, layout: string, dpi: int): string {
    RenderDot(BuildDot(g, layout, dpi))
  }

  // ---- the default output name ----

  /** `PurePosixPath(p).name`: the last `/`-separated part of `p`, where
      empty parts and `.` parts do not count; empty when no part counts. */
  function PathName(p: string): (r: string)
    ensures '/' !in r
    ensures r != "."
    decreases |p|
  {
    var i := RFind(p, '/');
    var part := p[i + 1..];
    if part == "" || part == "." then (if i < 0 then "" else PathName(p[..i]))
    else part
  }

  /** `PurePath.stem` of a name: drop the text from the last `.` on, unless
      that dot is the first or the last character. */
  function Stem(name: string): (r: string)
    ensures |r| <= |name| && r == name[..|r|]
    ensures |r| < |name| ==> 0 < |r| < |name| - 1 && name[|r|] == '.' && '.' !in name[|r| + 1..]
  {
    var i := RFind(name, '.');
    if 0 < i < |name| - 1 then name[..i] else name
  }

  /** `f"{Path(graphml_file).stem}.{format}"` */
  function DefaultOutputName(path: string, format: string): string {
    Stem(PathName(path)) + "." + format
  }
}

=== FILE: dot_props.dfy ===
/** What `generate_dot` and the default output name of `graphml2png.py`
    guarantee: edge labels, the text's frame, and the file name. */
module DotProperties {
  import opened Strings
  import opened Decimal
  import opened Graph
  import opened DotGen

  // ---- labels ----

  /** An edge's label text is empty exactly when it has none of
      `datarate`, `delay` and `network`. */
  lemma LabelEmptyIff(e: EdgeAttrs)
    ensures Join(EdgeLabels(e), LabelBreak) == "" <==> "datarate" !in e && "delay" !in e && "network" !in e
  {
    var parts := EdgeLabels(e);
    if |parts| > 0 {
      JoinStartsWithFirst(parts, LabelBreak);
    }
  }

  /** An edge without those attributes is written without any `label`
      attribute; otherwise the line carries the joined label. */
  lemma EdgeLineForm(e: EdgeAttrs)
    ensures "datarate" !in e && "delay" !in e && "network" !in e ==>
      EdgeLine(EdgeOf(e)) == "    " + Source(e) + " -- " + Target(e) + ";\n"
    ensures "datarate" in e || "delay" in e || "network" in e ==>
      EdgeLine(EdgeOf(e)) == "    " + Source(e) + " -- " + Target(e) + " [label=\"" + Join(EdgeLabels(e), LabelBreak) + "\"];\n"
  {
    LabelEmptyIff(e);
  }

  /** With all three attributes, the label reads
      `Rate: <r>\nDelay: <d>\nNet: <n>`, with a literal backslash-n. */
  lemma FullLabel(e: EdgeAttrs)
    requires "datarate" in e && "delay" in e && "network" in e
    ensures Join(EdgeLabels(e), LabelBreak) ==
      "Rate: " + e["datarate"] + "\\n" + "Delay: " + e["delay"] + "\\n" + "Net: " + e["network"]
  {
    var parts := EdgeLabels(e);
    assert parts == ["Rate: " + e["datarate"], "Delay: " + e["delay"], "Net: " + e["network"]];
    assert parts[1..][1..] == ["Net: " + e["network"]];
    assert Join(parts[1..][1..], LabelBreak) == "Net: " + e["network"];
    assert Join(parts[1..], LabelBreak) == "Delay: " + e["delay"] + LabelBreak + "Net: " + e["network"];
  }

  // ---- the text ----

  /** Node lines of consecutive node lists concatenate. */
  lemma {:induction false} NodeLinesAppend(a: seq<DotNode>, b: seq<DotNode>)
    ensures NodeLines(a + b) == NodeLines(a) + NodeLines(b)
  {
    if |a| > 0 {
      assert (a + b)[1..] == a[1..] + b;
      NodeLinesAppend(a[1..], b);
      assert (a + b)[0] == a[0];
    } else {
      assert a + b == b;
    }
  }

  /** Edge lines of consecutive edge lists concatenate. */
  lemma {:induction false} EdgeLinesAppend(a: seq<DotEdge>, b: seq<DotEdge>)
    ensures EdgeLines(a + b) == EdgeLines(a) + EdgeLines(b)
  {
    if |a| > 0 {
      assert (a + b)[1..] == a[1..] + b;
      EdgeLinesAppend(a[1..], b);
      assert (a + b)[0] == a[0];
    } else {
      assert a + b == b;
    }
  }

  lemma RenderFrame(d: DotGraph)
    ensures IsPrefix(Opening(d.layout, d.dpi), RenderDot(d))
    ensures EndsWith(RenderDot(d), Trailer)
  {
    var opening := Opening(d.layout, d.dpi);
    var t1 := opening + Styles;
    var t2 := t1 + NodeLines(d.nodes);
    var t3 := t2 + EdgesComment;
    var t4 := t3 + EdgeLines(d.edges);
    assert IsPrefix(opening, t1);
    PrefixExtends(opening, t1, NodeLines(d.nodes));
    PrefixExtends(opening, t2, EdgesComment);
    PrefixExtends(opening, t3, EdgeLines(d.edges));
    PrefixExtends(opening, t4, Trailer);
    assert (t4 + Trailer)[|t4|..] == Trailer;
  }

  /** The text opens with the graph header carrying `layout` and `dpi`
      verbatim and ends with `}` and a newline. */
  lemma DotFrame(g: Graph, layout: string, dpi: int)
    ensures var text := GenerateDot(g, layout, dpi);
      var opening := "graph network_topology {\n    // Graph attributes\n    layout=" + layout + ";\n    dpi=" + IntToString(dpi) + ";\n";
      IsPrefix(opening, text) && EndsWith(text, "}\n")
  {
    RenderFrame(BuildDot(g, layout, dpi));
  }

  /** Node `i`'s line comes after the lines of the nodes before it and
      before those of the nodes after it. */
  lemma DotNodeLine(g: Graph, layout: string, dpi: int, i: nat)
    requires i < |g.nodes|
    ensures var ns := BuildDot(g, layout, dpi).nodes;
      NodeLines(ns) == NodeLines(ns[..i]) + NodeLine(NodeOf(g.nodes[i])) + NodeLines(ns[i + 1..])
  {
    var ns := BuildDot(g, layout, dpi).nodes;
    assert ns == ns[..i] + [ns[i]] + ns[i + 1..];
    NodeLinesAppend(ns[..i] + [ns[i]], ns[i + 1..]);
    NodeLinesAppend(ns[..i], [ns[i]]);
    assert NodeLines([ns[i]]) == NodeLine(ns[i]);
  }

  /** Edge `j`'s line comes after the lines of the edges before it and
      before those of the edges after it. */
  lemma DotEdgeLine(g: Graph, layout: string, dpi: int, j: nat)
    requires j < |g.edges|
    ensures var es := BuildDot(g, layout, dpi).edges;
      EdgeLines(es) == EdgeLines(es[..j]) + EdgeLine(EdgeOf(g.edges[j])) + EdgeLines(es[j + 1..])
  {
    var es := BuildDot(g, layout, dpi).edges;
    assert es == es[..j] + [es[j]] + es[j + 1..];
    EdgeLinesAppend(es[..j] + [es[j]], es[j + 1..]);
    EdgeLinesAppend(es[..j], [es[j]]);
    assert EdgeLines([es[j]]) == EdgeLine(es[j]);
  }

  // ---- the default output name ----

  /** The name of `<dir>/<file>`, or of a bare `<file>`, is `<file>`. */
  lemma PathNameOfFile(dir: string, file: string)
    requires '/' !in file && file != "" && file != "."
    ensures PathName(dir + "/" + file) == file
    ensures PathName(file) == file
  {
    var p := dir + "/" + file;
    assert p[|dir|] == '/';
    var i := RFind(p, '/');
    assert i == |dir|;
    assert p[i + 1..] == file;
  }

  /** A trailing slash does not change the name. */
  lemma PathNameTrailingSlash(p: string)
    ensures PathName(p + "/") == PathName(p)
  {
    var q := p + "/";
    assert q[..|p|] == p;
  }

  /** The stem of `<base>.<ext>` is `<base>` when neither is empty and the
      extension has no dot. */
  lemma StemOfDotted(base: string, ext: string)
    requires |base| > 0 && |ext| > 0 && '.' !in ext
    ensures Stem(base + "." + ext) == base
  {
    var name := base + "." + ext;
    var i := RFind(name, '.');
    assert name[|base|] == '.';
    assert i == |base|;
  }

  /** A name without a dot, or whose only dot is its first character, is
      its own stem. */
  lemma StemUndotted(name: string)
    requires '.' !in name || (|name| > 0 && name[0] == '.' && '.' !in name[1..])
    ensures Stem(name) == name
  {
    if |name| > 0 && name[0] == '.' {
      var i := RFind(name, '.');
      assert i == 0;
    }
  }

  /** For `<dir>/<base>.<ext>` the default image name is `<base>.<format>`. */
  lemma DefaultOutputNameOf(dir: string, base: string, ext: string, format: string)
    requires |base| > 0 && |ext| > 0 && '.' !in ext && '/' !in base && '/' !in ext
    ensures DefaultOutputName(dir + "/" + base + "." + ext, format) == base + "." + format
  {
    var file := base + "." + ext;
    assert '/' !in file by {
      assert forall k :: 0 <= k < |file| ==> file[k] == (if k < |base| then base[k] else if k == |base| then '.' else ext[k - |base| - 1]);
    }
    assert file != "." by {
      assert |file| > 1;
    }
    assert dir + "/" + base + "." + ext == dir + "/" + file;
    PathNameOfFile(dir, file);
    StemOfDotted(base, ext);
  }
}

=== FILE: graph.dfy ===
/** The topology graph the three generators work on, and how `parse_graphml`
    builds it from the GraphML element tree.

    The three scripts carry identical copies of `parse_graphml`. The XML
    text itself is parsed by a library; this module starts from the element
    lists that library hands back (key declarations, node elements and edge
    elements, each in document order) and models what the function does
    with them:

    - `keys` maps a key declaration's `id` to its `attr.name`; a later
      declaration with the same `id` replaces an earlier one;
    - every node becomes a dictionary that starts as `{"id": <xml id>}` and
      then receives one entry per `data` child whose key is declared, so a
      later `data` element for the same attribute name overwrites an earlier
      one (including the initial `id`);
    - the nodes dictionary is keyed by the XML id, in document order; a
      repeated XML id replaces the earlier node's attributes in place;
    - every edge becomes a dictionary starting as
      `{"id", "source", "target"}` and receives its `data` the same way;
      edges form a list in document order.
 */
module Graph {
  import opened OrderedDict

  type Attrs = map<string, string>

  /** An edge's dictionary always carries `source` and `target`. */
  type EdgeAttrs = m: Attrs | "source" in m && "target" in m
    witness map["source" := "", "target" := ""]

  /** `nodes` is the insertion-ordered dictionary from XML id to attributes;
      `edges` is the list of edge dictionaries. */
  datatype Graph = Graph(nodes: Dict<string, Attrs>, edges: seq<EdgeAttrs>)

  function Source(e: EdgeAttrs): string { e["source"] }

  function Target(e: EdgeAttrs): string { e["target"] }

  /** `d.get(name, default)` */
  function AttrOr(m: Attrs, name: string, default: string): string {
    if name in m then m[name] else default
  }

  // ---- the element tree handed over by the XML library ----

  /** `<key id=... for=... attr.name=... attr.type=...>` */
  datatype KeyDecl = KeyDecl(id: string, domain: string, name: string, kind: string)

  /** `<data key=...>text</data>` */
  datatype DataElem = DataElem(key: string, text: string)

  datatype NodeElem = NodeElem(id: string, data: seq<DataElem>)

  datatype EdgeElem = EdgeElem(id: string, source: string, target: string, data: seq<DataElem>)

  datatype Document = Document(keys: seq<KeyDecl>, nodes: seq<NodeElem>, edges: seq<EdgeElem>)

  // ---- extraction ----

  /** The `keys` table: declaration id to attribute name, later wins. */
  function KeyNames(decls: seq<KeyDecl>): (names: map<string, string>)
  {
    if |decls| == 0 then map[]
    else
      var last := decls[|decls| - 1];
      KeyNames(decls[..|decls| - 1])[last.id := last.name]
  }

  /** An id is in the table exactly when some declaration has it. */
  lemma {:induction false} KeyNamesKeys(decls: seq<KeyDecl>, k: string)
    ensures k in KeyNames(decls) <==> exists i :: 0 <= i < |decls| && decls[i].id == k
  {
    if |decls| > 0 {
      var init := decls[..|decls| - 1];
      KeyNamesKeys(init, k);
      if exists i :: 0 <= i < |init| && init[i].id == k {
        var i :| 0 <= i < |init| && init[i].id == k;
        assert decls[i].id == k;
      }
      if exists i :: 0 <= i < |decls| && decls[i].id == k {
        var i :| 0 <= i < |decls| && decls[i].id == k;
        if i < |init| {
          assert init[i].id == k;
        }
      }
    }
  }

  /** The last declaration of an id decides its attribute name. */
  lemma {:induction false} KeyNamesLastWins(decls: seq<KeyDecl>, i: nat)
    requires i < |decls| && LastDecl(decls, i)
    ensures decls[i].id in KeyNames(decls) && KeyNames(decls)[decls[i].id] == decls[i].name
  {
    var init := decls[..|decls| - 1];
    if i < |init| {
      assert init[i] == decls[i];
      assert LastDecl(init, i) by {
        assert forall j :: i < j < |init| ==> init[j] == decls[j];
      }
      KeyNamesLastWins(init, i);
    }
  }

  /** No later declaration reuses the id of declaration `i`. */
  ghost predicate LastDecl(decls: seq<KeyDecl>, i: nat)
    requires i < |decls|
  {
    forall j :: i < j < |decls| ==> decls[j].id != decls[i].id
  }

  /** `d` is a `data` element with a declared key whose name is `a`. */
  predicate Names(d: DataElem, names: map<string, string>, a: string) {
    d.key in names && names[d.key] == a
  }

  /** The `for data in ...: if key_id in keys: attrs[name] = data.text` loop. */
  function ApplyData(attrs: Attrs, data: seq<DataElem>, names: map<string, string>): (r: Attrs)
    ensures forall a :: a in attrs ==> a in r
    ensures forall i :: 0 <= i < |data| && data[i].key in names ==> names[data[i].key] in r
  {
    if |data| == 0 then attrs
    else
      var last := data[|data| - 1];
      var prior := ApplyData(attrs, data[..|data| - 1], names);
      if last.key in names then prior[names[last.key] := last.text] else prior
  }

  /** The attributes after the loop are the initial ones and those some
      declared `data` element names. */
  lemma {:induction false} ApplyDataKeys(attrs: Attrs, data: seq<DataElem>, names: map<string, string>, a: string)
    ensures a in ApplyData(attrs, data, names) <==> a in attrs || exists i :: 0 <= i < |data| && Names(data[i], names, a)
  {
    if |data| > 0 {
      var init := data[..|data| - 1];
      ApplyDataKeys(attrs, init, names, a);
      if exists i :: 0 <= i < |init| && Names(init[i], names, a) {
        var i :| 0 <= i < |init| && Names(init[i], names, a);
        assert data[i] == init[i];
      }
      if exists i :: 0 <= i < |data| && Names(data[i], names, a) {
        var i :| 0 <= i < |data| && Names(data[i], names, a);
        if i < |init| {
          assert init[i] == data[i];
        }
      }
    }
  }

  /** An attribute no declared `data` element writes keeps its value. */
  lemma {:induction false} ApplyDataKeeps(attrs: Attrs, data: seq<DataElem>, names: map<string, string>, a: string)
    requires a in attrs
    requires forall i :: 0 <= i < |data| ==> !Names(data[i], names, a)
    ensures ApplyData(attrs, data, names)[a] == attrs[a]
  {
    if |data| > 0 {
      var init := data[..|data| - 1];
      assert forall i :: 0 <= i < |init| ==> init[i] == data[i];
      ApplyDataKeeps(attrs, init, names, a);
    }
  }

  /** The last declared `data` element writing an attribute decides its value. */
  lemma {:induction false} ApplyDataLastWins(attrs: Attrs, data: seq<DataElem>, names: map<string, string>, i: nat)
    requires i < |data| && data[i].key in names && LastNaming(data, names, i)
    ensures ApplyData(attrs, data, names)[names[data[i].key]] == data[i].text
  {
    var init := data[..|data| - 1];
    assert forall j :: 0 <= j < |init| ==> init[j] == data[j];
    if i < |data| - 1 {
      ApplyDataLastWins(attrs, init, names, i);
    }
  }

  /** No later `data` element writes the attribute `data[i]` writes. */
  ghost predicate LastNaming(data: seq<DataElem>, names: map<string, string>, i: nat)
    requires i < |data| && data[i].key in names
  {
    forall j :: i < j < |data| ==> !Names(data[j], names, names[data[i].key])
  }

  function NodeAttrs(n: NodeElem, names: map<string, string>): (r: Attrs)
    ensures "id" in r
  {
    ApplyData(map["id" := n.id], n.data, names)
  }

  function EdgeAttrsOf(e: EdgeElem, names: map<string, string>): (r: EdgeAttrs)
  {
    ApplyData(map["id" := e.id, "source" := e.source, "target" := e.target], e.data, names)
  }

  /** The `nodes[node_id] = {...}` loop. */
  function ExtractNodes(elems: seq<NodeElem>, names: map<string, string>): (d: Dict<string, Attrs>)
    ensures UniqueKeys(d)
  {
    if |elems| == 0 then []
    else
      var last := elems[|elems| - 1];
      var prior := ExtractNodes(elems[..|elems| - 1], names);
      PutKeepsKeysUnique(prior, last.id, NodeAttrs(last, names));
      Put(prior, last.id, NodeAttrs(last, names))
  }

  /** One step of the node loop. */
  lemma ExtractNodesStep(elems: seq<NodeElem>, names: map<string, string>)
    requires |elems| > 0
    ensures ExtractNodes(elems, names) ==
      Put(ExtractNodes(elems[..|elems| - 1], names), elems[|elems| - 1].id, NodeAttrs(elems[|elems| - 1], names))
  {
  }

  /** The XML ids of `elems`, in document order. */
  function NodeIds(elems: seq<NodeElem>): (ids: seq<string>)
    ensures |ids| == |elems|
    ensures forall i :: 0 <= i < |elems| ==> ids[i] == elems[i].id
  {
    if |elems| == 0 then [] else NodeIds(elems[..|elems| - 1]) + [elems[|elems| - 1].id]
  }

  /** The node dictionary has one key per distinct XML node id. */
  lemma {:induction false} ExtractNodesKeys(elems: seq<NodeElem>, names: map<string, string>, k: string)
    ensures k in Keys(ExtractNodes(elems, names)) <==> k in NodeIds(elems)
  {
    if |elems| > 0 {
      var init := elems[..|elems| - 1];
      var last := elems[|elems| - 1];
      assert k in Keys(ExtractNodes(elems, names)) <==> k in Keys(ExtractNodes(init, names)) || k == last.id by {
        ExtractNodesStep(elems, names);
        PutKeys(ExtractNodes(init, names), last.id, NodeAttrs(last, names), k);
      }
      assert k in NodeIds(elems) <==> k in NodeIds(init) || k == last.id by {
        assert NodeIds(elems) == NodeIds(init) + [last.id];
      }
      ExtractNodesKeys(init, names, k);
    }
  }

  function ExtractEdges(elems: seq<EdgeElem>, names: map<string, string>): (es: seq<EdgeAttrs>)
    ensures |es| == |elems|
    ensures forall i :: 0 <= i < |elems| ==> es[i] == EdgeAttrsOf(elems[i], names)
  {
    if |elems| == 0 then [] else [EdgeAttrsOf(elems[0], names)] + ExtractEdges(elems[1..], names)
  }

  /** `parse_graphml` after the XML library has done its work. */
  function Extract(doc: Document): (g: Graph)
    ensures UniqueKeys(g.nodes)
    ensures |g.edges| == |doc.edges|
  {
    var names := KeyNames(doc.keys);
    Graph(ExtractNodes(doc.nodes, names), ExtractEdges(doc.edges, names))
  }

  // ---- properties of the extraction ----

  /** A `data` element whose key was never declared changes nothing. */
  lemma UndeclaredDataIgnored(attrs: Attrs, data: seq<DataElem>, d: DataElem, names: map<string, string>)
    requires d.key !in names
    ensures ApplyData(attrs, data + [d], names) == ApplyData(attrs, data, names)
  {
    assert (data + [d])[..|data|] == data;
  }

  /** Every node dictionary starts with `"id"` set to the XML id, and keeps
      that value unless a declared `data` element names the attribute `id`;
      otherwise the last such element decides it. */
  lemma NodeIdAttribute(n: NodeElem, names: map<string, string>)
    ensures (forall i :: 0 <= i < |n.data| ==> !Names(n.data[i], names, "id")) ==> NodeAttrs(n, names)["id"] == n.id
    ensures forall i :: 0 <= i < |n.data| && Names(n.data[i], names, "id") && LastNaming(n.data, names, i) ==>
      NodeAttrs(n, names)["id"] == n.data[i].text
  {
    if forall i :: 0 <= i < |n.data| ==> !Names(n.data[i], names, "id") {
      ApplyDataKeeps(map["id" := n.id], n.data, names, "id");
    }
    forall i | 0 <= i < |n.data| && Names(n.data[i], names, "id") && LastNaming(n.data, names, i) {
      ApplyDataLastWins(map["id" := n.id], n.data, names, i);
    }
  }

  /** Each node element with its attribute dictionary, in document order. */
  function NodeEntries(elems: seq<NodeElem>, names: map<string, string>): (d: Dict<string, Attrs>)
    ensures |d| == |elems|
    ensures forall i :: 0 <= i < |elems| ==> d[i] == (elems[i].id, NodeAttrs(elems[i], names))
  {
    if |elems| == 0 then []
    else NodeEntries(elems[..|elems| - 1], names) + [(elems[|elems| - 1].id, NodeAttrs(elems[|elems| - 1], names))]
  }

  /** With distinct XML ids, the node dictionary lists the nodes in
      document order, each with its own attributes. */
  lemma {:induction false} DistinctNodesInOrder(elems: seq<NodeElem>, names: map<string, string>)
    requires forall i, j :: 0 <= i < j < |elems| ==> elems[i].id != elems[j].id
    ensures ExtractNodes(elems, names) == NodeEntries(elems, names)
  {
    if |elems| > 0 {
      var init := elems[..|elems| - 1];
      var last := elems[|elems| - 1];
      assert forall i :: 0 <= i < |init| ==> init[i] == elems[i];
      DistinctNodesInOrder(init, names);
      FreshLastId(elems, names);
      ExtractNodesStep(elems, names);
      PutAppends(ExtractNodes(init, names), last.id, NodeAttrs(last, names));
    }
  }

  /** With distinct ids, the last node's id is not yet a key when it is
      stored. */
  lemma FreshLastId(elems: seq<NodeElem>, names: map<string, string>)
    requires |elems| > 0
    requires forall i :: 0 <= i < |elems| - 1 ==> elems[i].id != elems[|elems| - 1].id
    ensures elems[|elems| - 1].id !in Keys(ExtractNodes(elems[..|elems| - 1], names))
  {
    var init := elems[..|elems| - 1];
    ExtractNodesKeys(init, names, elems[|elems| - 1].id);
    assert forall i :: 0 <= i < |init| ==> NodeIds(init)[i] == elems[i].id;
  }
}

=== FILE: ns3_gen.dfy ===
/** `generate_ns3_from_graph.py`: from a parsed graph to an ns-3 program that
    builds one CSMA LAN per edge and binds a TAP bridge to each end.

    The generator is modelled in two layers. `GenerateNs3` computes the
    structured content of the program (node count and names, one
    `CsmaBlock` per edge, the TAP lines grouped by node), and
    `RenderNs3` turns that structure into the C++ text the script writes.
 */
module Ns3Gen {
  import opened Results
  import opened Strings
  import opened Decimal
  import opened OrderedDict
  import opened StableSort
  import opened Graph

  // ---- delays ----

  datatype TimeUnit = MilliSeconds | MicroSeconds | Seconds

  /** An ns-3 time constructor applied to the text of a number. */
  datatype Delay = Delay(unit: TimeUnit, amount: string)

  /** The suffix the delay attribute spells each unit with. */
  function UnitSuffix(u: TimeUnit): string {
    match u
    case MilliSeconds => "ms"
    case MicroSeconds => "us"
    case Seconds => "s"
  }

  function UnitName(u: TimeUnit): string {
    match u
    case MilliSeconds => "MilliSeconds"
    case MicroSeconds => "MicroSeconds"
    case Seconds => "Seconds"
  }

  /** `convert_delay_to_ns3`: dispatch on the unit suffix, `ms` before `us`
      before `s`; text without any of them is taken as milliseconds.
      A recognised suffix is split off exactly: amount plus suffix gives
      the input back. */
  function ConvertDelay(s: string): (d: Delay)
    ensures EndsWith(s, "s") ==> d.amount + UnitSuffix(d.unit) == s
    ensures !EndsWith(s, "s") ==> d == Delay(MilliSeconds, s)
    ensures d.unit == Seconds ==> !EndsWith(s, "ms") && !EndsWith(s, "us")
  {
    if EndsWith(s, "ms") then Delay(MilliSeconds, s[..|s| - 2])
    else if EndsWith(s, "us") then Delay(MicroSeconds, s[..|s| - 2])
    else if EndsWith(s, "s") then Delay(Seconds, s[..|s| - 1])
    else Delay(MilliSeconds, s)
  }

  /** `TimeValue(<Unit>(<amount>))` */
  function RenderDelay(d: Delay): string {
    "TimeValue(" + UnitName(d.unit) + "(" + d.amount + "))"
  }

  /** A delay ending in `ms` is milliseconds of the text before `ms`; in
      particular `5ms` is never read as seconds. */
  lemma DelayMilliseconds(s: string)
    requires EndsWith(s, "ms")
    ensures ConvertDelay(s) == Delay(MilliSeconds, s[..|s| - 2])
  {
  }

  /** A delay ending in `us` is microseconds of the text before `us`. */
  lemma DelayMicroseconds(s: string)
    requires EndsWith(s, "us")
    ensures ConvertDelay(s) == Delay(MicroSeconds, s[..|s| - 2])
  {
    assert s[|s| - 2] == 'u';
  }

  /** Any other `s` suffix is seconds with one character stripped. */
  lemma DelaySeconds(s: string)
    requires EndsWith(s, "s") && !EndsWith(s, "ms") && !EndsWith(s, "us")
    ensures ConvertDelay(s) == Delay(Seconds, s[..|s| - 1])
  {
  }

  // ---- node order ----

  type NodeEntry = (string, Attrs)

  /** `int(attrs.get("id", 0))`, the sort key of a node. */
  function NodeSortKey(attrs: Attrs): (r: Result<int>)
    ensures "id" in attrs ==> (r.Ok? <==> ParseInt(attrs["id"]).Some?)
    ensures r.Ok? && "id" in attrs ==> r.value == ParseInt(attrs["id"]).value
    ensures "id" !in attrs ==> r == Ok(0)
  {
    if "id" !in attrs then Ok(0)
    else match ParseInt(attrs["id"])
      case Some(v) => Ok(v)
      case None => Err(InvalidInt(attrs["id"]))
  }

  /** Computing every node's sort key, in dictionary order; the first key
      that is not an integer aborts. */
  function KeyNodes(nodes: Dict<string, Attrs>): (r: Result<seq<Keyed<NodeEntry>>>)
    ensures r.Ok? <==> forall i :: 0 <= i < |nodes| ==> NodeSortKey(nodes[i].1).Ok?
    ensures r.Ok? ==> |r.value| == |nodes|
    ensures r.Ok? ==> forall i :: 0 <= i < |nodes| ==> r.value[i] == Keyed(NodeSortKey(nodes[i].1).value, nodes[i])
  {
    if |nodes| == 0 then Ok([])
    else
      var k :- NodeSortKey(nodes[0].1);
      var rest :- KeyNodes(nodes[1..]);
      Ok([Keyed(k, nodes[0])] + rest)
  }

  /** `sorted(nodes.items(), key=lambda x: int(x[1].get("id", 0)))`: the
      dictionary entries ordered by numeric id, entries with equal ids in
      dictionary order. */
  function SortedNodes(nodes: Dict<string, Attrs>): (r: Result<seq<Keyed<NodeEntry>>>)
    ensures r.Ok? <==> forall i :: 0 <= i < |nodes| ==> NodeSortKey(nodes[i].1).Ok?
    ensures r.Ok? ==> |r.value| == |nodes|
    ensures r.Ok? ==> multiset(r.value) == multiset(KeyNodes(nodes).value)
    ensures r.Ok? ==> SortedByKey(r.value)
    ensures r.Ok? ==> forall k :: WithKey(r.value, k) == WithKey(KeyNodes(nodes).value, k)
  {
    var keyed :- KeyNodes(nodes);
    Ok(Sort(keyed))
  }

  /** The position of the first entry with dictionary key `key`, if any. */
  function Find(sorted: seq<Keyed<NodeEntry>>, key: string): (r: Option<nat>)
    ensures r.Some? ==> r.value < |sorted| && sorted[r.value].item.0 == key
    ensures r.Some? ==> forall j :: 0 <= j < r.value ==> sorted[j].item.0 != key
    ensures r.None? ==> forall j :: 0 <= j < |sorted| ==> sorted[j].item.0 != key
  {
    if |sorted| == 0 then None
    else if sorted[0].item.0 == key then Some(0)
    else match Find(sorted[1..], key)
      case Some(j) => Some(j + 1)
      case None => None
  }

  /** `next((idx for idx, (node_id, _) in enumerate(sorted_nodes) if node_id == key), 0)`:
      the node's position in sorted order, or 0 when no node has that key. */
  function NodeIndex(sorted: seq<Keyed<NodeEntry>>, key: string): (r: nat)
    ensures (exists j :: 0 <= j < |sorted| && sorted[j].item.0 == key) ==>
      r < |sorted| && sorted[r].item.0 == key && forall j :: 0 <= j < r ==> sorted[j].item.0 != key
    ensures (forall j :: 0 <= j < |sorted| ==> sorted[j].item.0 != key) ==> r == 0
    ensures r < |sorted| || r == 0
  {
    match Find(sorted, key)
    case Some(j) => j
    case None => 0
  }

  // ---- the program's content ----

  /** One `CsmaHelper csma<lan>` block and its device container `d<lan>`. */
  datatype CsmaBlock = CsmaBlock(
    lan: nat, network: string, source: string, target: string,
    rate: string, delay: Delay, srcIdx: nat, dstIdx: nat)

  /** `tb.SetAttribute("DeviceName", ...); tb.Install(n.Get(nodeIdx), d<lan>.Get(end));` */
  datatype TapLine = TapLine(device: string, nodeIdx: nat, lan: nat, end: nat)

  /** The TAP lines of one node, under a `// <name>` comment. */
  datatype TapGroup = TapGroup(nodeIdx: nat, name: string, lines: seq<TapLine>)

  datatype Ns3Program = Ns3Program(
    nodeCount: nat, nodeNames: seq<string>, lans: seq<CsmaBlock>, taps: seq<TapGroup>)

  /** `node.get("name", f"node{i}")` */
  function NodeName(attrs: Attrs, i: nat): string {
    AttrOr(attrs, "name", "node" + NatToString(i))
  }

  function DefaultNetwork(i: nat): string {
    "10.0." + NatToString(i + 1) + ".*"
  }

  /** The LAN block of edge `i` (0-based). */
  function Lan(i: nat, e: EdgeAttrs, sorted: seq<Keyed<NodeEntry>>): CsmaBlock {
    CsmaBlock(
      i + 1,
      AttrOr(e, "network", DefaultNetwork(i)),
      Source(e), Target(e),
      AttrOr(e, "datarate", "100Mbps"),
      ConvertDelay(AttrOr(e, "delay", "1ms")),
      NodeIndex(sorted, Source(e)), NodeIndex(sorted, Target(e)))
  }

  /** The default TAP device name `tap_{nodeIdx}_{edgeIdx}`. */
  function DefaultTapName(nodeIdx: nat, edgeIdx: nat): string {
    "tap_" + NatToString(nodeIdx) + "_" + NatToString(edgeIdx)
  }

  /** The two TAP lines of edge `i`: the source end (device 0) first. */
  function EdgeTaps(i: nat, e: EdgeAttrs, sorted: seq<Keyed<NodeEntry>>): (r: seq<TapLine>)
    ensures |r| == 2
  {
    var src := NodeIndex(sorted, Source(e));
    var dst := NodeIndex(sorted, Target(e));
    [ TapLine(AttrOr(e, "tap_device_a", DefaultTapName(src, i)), src, i + 1, 0),
      TapLine(AttrOr(e, "tap_device_b", DefaultTapName(dst, i)), dst, i + 1, 1) ]
  }

  /** The TAP lines of all edges, in the order the loop appends them:
      the source end of edge `i` at `2 * i`, its target end right after. */
  function AllTaps(edges: seq<EdgeAttrs>, sorted: seq<Keyed<NodeEntry>>): (lines: seq<TapLine>)
    ensures |lines| == 2 * |edges|
  {
    if |edges| == 0 then []
    else
      var n := |edges| - 1;
      AllTaps(edges[..n], sorted) + EdgeTaps(n, edges[n], sorted)
  }

  /** Edge `i` contributes the lines at `2 * i` (its source end) and
      `2 * i + 1` (its target end). */
  lemma {:induction false} AllTapsAt(edges: seq<EdgeAttrs>, sorted: seq<Keyed<NodeEntry>>, i: nat)
    requires i < |edges|
    ensures AllTaps(edges, sorted)[2 * i] == EdgeTaps(i, edges[i], sorted)[0]
    ensures AllTaps(edges, sorted)[2 * i + 1] == EdgeTaps(i, edges[i], sorted)[1]
  {
    var n := |edges| - 1;
    var prior := AllTaps(edges[..n], sorted);
    var pair := EdgeTaps(n, edges[n], sorted);
    assert AllTaps(edges, sorted) == prior + pair;
    assert |prior| == 2 * n;
    if i < n {
      assert 2 * i + 1 < |prior|;
      AllTapsAt(edges[..n], sorted, i);
      assert edges[..n][i] == edges[i];
      ConcatLeft(prior, pair, 2 * i);
      ConcatLeft(prior, pair, 2 * i + 1);
    } else {
      assert 2 * i == |prior|;
      ConcatRight(prior, pair, 0);
      ConcatRight(prior, pair, 1);
    }
  }

  lemma ConcatLeft<T>(a: seq<T>, b: seq<T>, j: nat)
    requires j < |a|
    ensures (a + b)[j] == a[j]
  {
  }

  lemma ConcatRight<T>(a: seq<T>, b: seq<T>, j: nat)
    requires j < |b|
    ensures (a + b)[|a| + j] == b[j]
  {
  }

  /** Every TAP line names a real node position, or 0 when there is none. */
  lemma AllTapsIndexBound(edges: seq<EdgeAttrs>, sorted: seq<Keyed<NodeEntry>>, j: nat)
    requires j < 2 * |edges|
    ensures AllTaps(edges, sorted)[j].nodeIdx < |sorted| || AllTaps(edges, sorted)[j].nodeIdx == 0
  {
    var i := j / 2;
    HalfOf(i);
    AllTapsAt(edges, sorted, i);
    assert j == 2 * i || j == 2 * i + 1;
  }

  lemma HalfOf(i: nat)
    ensures (2 * i) / 2 == i && (2 * i) % 2 == 0
    ensures (2 * i + 1) / 2 == i && (2 * i + 1) % 2 == 1
  {
  }

  /** The lines of `lines` that belong to node `k`, in order. */
  function Select(lines: seq<TapLine>, k: nat): seq<TapLine>
  {
    if |lines| == 0 then []
    else
      var last := lines[|lines| - 1];
      Select(lines[..|lines| - 1], k) + (if last.nodeIdx == k then [last] else [])
  }

  /** `Select` keeps exactly the lines of node `k`. */
  lemma {:induction false} SelectMembers(lines: seq<TapLine>, k: nat)
    ensures forall t :: t in Select(lines, k) <==> t in lines && t.nodeIdx == k
  {
    if |lines| > 0 {
      var init := lines[..|lines| - 1];
      SelectMembers(init, k);
      assert lines == init + [lines[|lines| - 1]];
    }
  }

  /** The `node_taps` dictionary: `setdefault(idx, []).append(line)` per
      line. Node `k` has an entry exactly when some line belongs to it, and
      the entry lists that node's lines in their original order. */
  function GroupTaps(lines: seq<TapLine>): (m: map<nat, seq<TapLine>>)
    ensures forall k :: k in m ==> m[k] == Select(lines, k) && m[k] != []
    ensures forall k :: k !in m ==> Select(lines, k) == []
  {
    if |lines| == 0 then map[]
    else
      var init := lines[..|lines| - 1];
      var last := lines[|lines| - 1];
      var prior := GroupTaps(init);
      prior[last.nodeIdx := (if last.nodeIdx in prior then prior[last.nodeIdx] else []) + [last]]
  }

  /** A node has a TAP group exactly when one of the lines is for it. */
  lemma GroupTapsKeys(lines: seq<TapLine>, k: nat)
    ensures k in GroupTaps(lines) <==> exists j :: 0 <= j < |lines| && lines[j].nodeIdx == k
  {
    SelectMembers(lines, k);
    if exists j :: 0 <= j < |lines| && lines[j].nodeIdx == k {
      var j :| 0 <= j < |lines| && lines[j].nodeIdx == k;
      assert lines[j] in Select(lines, k);
    }
  }

  /** The keys of `m` in `[k, bound)`, ascending. */
  function AscendingKeys(m: map<nat, seq<TapLine>>, k: nat, bound: nat): (ks: seq<nat>)
    decreases bound - k
    ensures forall x :: x in ks <==> x in m && k <= x < bound
    ensures forall i, j :: 0 <= i < j < |ks| ==> ks[i] < ks[j]
  {
    if k >= bound then []
    else
      var rest := AscendingKeys(m, k + 1, bound);
      assert forall i :: 0 <= i < |rest| ==> rest[i] in rest;
      (if k in m then [k] else []) + rest
  }

  /** The `for node_idx in sorted(node_taps.keys())` loop; looking up
      `sorted_nodes[node_idx]` past the end raises. */
  function TapGroups(sorted: seq<Keyed<NodeEntry>>, m: map<nat, seq<TapLine>>, ks: seq<nat>): (r: Result<seq<TapGroup>>)
    requires forall i :: 0 <= i < |ks| ==> ks[i] in m
    ensures r.Ok? <==> forall i :: 0 <= i < |ks| ==> ks[i] < |sorted|
    ensures r.Ok? ==> |r.value| == |ks|
    ensures r.Ok? ==> forall i :: 0 <= i < |ks| ==>
      r.value[i] == TapGroup(ks[i], NodeName(sorted[ks[i]].item.1, ks[i]), m[ks[i]])
  {
    if |ks| == 0 then Ok([])
    else if ks[0] >= |sorted| then Err(IndexOutOfRange(ks[0]))
    else
      var k := ks[0];
      var rest :- TapGroups(sorted, m, ks[1..]);
      Ok([TapGroup(k, NodeName(sorted[k].item.1, k), m[k])] + rest)
  }

  /** The node comment: each sorted node's name, or `node{i}`. */
  function NodeNames(sorted: seq<Keyed<NodeEntry>>): (names: seq<string>)
    ensures |names| == |sorted|
    ensures forall i :: 0 <= i < |sorted| ==> names[i] == NodeName(sorted[i].item.1, i)
  {
    seq(|sorted|, i requires 0 <= i < |sorted| => NodeName(sorted[i].item.1, i))
  }

  /** One LAN block per edge, in edge order. */
  function Lans(edges: seq<EdgeAttrs>, sorted: seq<Keyed<NodeEntry>>): (lans: seq<CsmaBlock>)
    ensures |lans| == |edges|
    ensures forall i :: 0 <= i < |edges| ==> lans[i] == Lan(i, edges[i], sorted)
  {
    seq(|edges|, i requires 0 <= i < |edges| => Lan(i, edges[i], sorted))
  }

  /** The TAP section: lines grouped by node, groups in ascending node index. */
  function TapGroupsOf(edges: seq<EdgeAttrs>, sorted: seq<Keyed<NodeEntry>>): Result<seq<TapGroup>>
  {
    GroupLines(AllTaps(edges, sorted), sorted)
  }

  /** Groups TAP lines by node and walks the nodes in ascending index. */
  function GroupLines(lines: seq<TapLine>, sorted: seq<Keyed<NodeEntry>>): Result<seq<TapGroup>>
  {
    var m := GroupTaps(lines);
    TapGroups(sorted, m, AscendingKeys(m, 0, |sorted| + 1))
  }

  /** `generate_ns3_code` up to the text it writes. */
  function GenerateNs3(g: Graph): Result<Ns3Program>
  {
    match SortedNodes(g.nodes)
    case Err(e) => Err(e)
    case Ok(sorted) =>
      match TapGroupsOf(g.edges, sorted)
      case Err(e) => Err(e)
      case Ok(groups) => Ok(Ns3Program(|sorted|, NodeNames(sorted), Lans(g.edges, sorted), groups))
  }

  // ---- rendering ----

  function RenderLan(b: CsmaBlock): string {
    var lan := NatToString(b.lan);
    "    // --- LAN " + b.network + " (" + b.source + " <-> " + b.target + ") ---\n"
    + "    CsmaHelper csma" + lan + ";\n"
    + "    csma" + lan + ".SetChannelAttribute(\"DataRate\", StringValue(\"" + b.rate + "\"));\n"
    + "    csma" + lan + ".SetChannelAttribute(\"Delay\", " + RenderDelay(b.delay) + ");\n"
    + "    NetDeviceContainer d" + lan + " = csma" + lan + ".Install(NodeContainer(n.Get("
    + NatToString(b.srcIdx) + "), n.Get(" + NatToString(b.dstIdx) + ")));\n\n"
  }

  function RenderTapLine(t: TapLine): string {
    "tb.SetAttribute(\"DeviceName\", StringValue(\"" + t.device + "\")); tb.Install(n.Get("
    + NatToString(t.nodeIdx) + "), d" + NatToString(t.lan) + ".Get(" + NatToString(t.end) + "));"
  }

  function RenderGroup(g: TapGroup): string {
    "    // " + g.name + "\n"
    + Concat(seq(|g.lines|, i requires 0 <= i < |g.lines| => "    " + RenderTapLine(g.lines[i]) + "\n"))
  }

  const Preamble: string :=
    "#include \"ns3/core-module.h\"\n"
    + "#include \"ns3/csma-module.h\"\n"
    + "#include \"ns3/network-module.h\"\n"
    + "#include \"ns3/tap-bridge-module.h\"\n"
    + "\n"
    + "#include <fstream>\n"
    + "#include <iostream>\n"
    + "\n"
    + "using namespace ns3;\n"
    + "\n"
    + "NS_LOG_COMPONENT_DEFINE(\"GeneratedTopologyExample\");\n"
    + "\n"
    + "int main(int argc, char* argv[])\n"
    + "{\n"
    + "    CommandLine cmd(__FILE__);\n"
    + "    cmd.Parse(argc, argv);\n"
    + "\n"
    + "    // Real-time simulation + enable checksums\n"
    + "    GlobalValue::Bind(\"SimulatorImplementationType\", StringValue(\"ns3::RealtimeSimulatorImpl\"));\n"
    + "    GlobalValue::Bind(\"ChecksumEnabled\", BooleanValue(true));\n"
    + "\n"

  const TapPreamble: string :=
    "    // Setup TapBridge\n"
    + "    TapBridgeHelper tb;\n"
    + "    tb.SetAttribute(\"Mode\", StringValue(\"UseBridge\"));\n"
    + "\n"

  const Epilogue: string :=
    "\n"
    + "    // Run simulation for 10 minutes\n"
    + "    Simulator::Stop(Seconds(600.0));\n"
    + "    Simulator::Run();\n"
    + "    Simulator::Destroy();\n"
    + "\n"
    + "    return 0;\n"
    + "}\n"

  /** The node declaration: the node count, once in the comment and once
      in `n.Create`, and the sorted node names joined by `, `. */
  function NodeHeader(p: Ns3Program): string {
    var count := NatToString(p.nodeCount);
    "    // Create " + count + " ghost nodes\n"
    + "    NodeContainer n;\n"
    + "    n.Create(" + count + "); // " + Join(p.nodeNames, ", ") + "\n"
  }

  function LanSection(p: Ns3Program): string {
    Concat(seq(|p.lans|, i requires 0 <= i < |p.lans| => RenderLan(p.lans[i])))
  }

  function TapSection(p: Ns3Program): string {
    Concat(seq(|p.taps|, i requires 0 <= i < |p.taps| => RenderGroup(p.taps[i])))
  }

  /** The C++ text `generate_ns3_code` writes. */
  function RenderNs3(p: Ns3Program): string {
    Preamble + NodeHeader(p) + "\n" + LanSection(p) + TapPreamble + TapSection(p) + Epilogue
  }
}

=== FILE: ns3_props.dfy ===
/** What `generate_ns3_code` guarantees about the program it emits: when it
    fails, how the nodes are ordered, one LAN per edge, how TAP devices are
    named, and how the TAP lines are grouped by node. */
module Ns3Properties {
  import opened Results
  import opened Strings
  import opened Decimal
  import opened StableSort
  import opened Graph
  import opened Ns3Gen

  // ---- failure ----

  /** For lines whose node index is a node position or the fallback 0,
      grouping fails exactly when some line's node index is past the end of
      the node list. */
  lemma GroupLinesOutcome(lines: seq<TapLine>, sorted: seq<Keyed<NodeEntry>>)
    requires forall j :: 0 <= j < |lines| ==> lines[j].nodeIdx < |sorted| || lines[j].nodeIdx == 0
    ensures GroupLines(lines, sorted).Ok? <==> forall j :: 0 <= j < |lines| ==> lines[j].nodeIdx < |sorted|
  {
    var m := GroupTaps(lines);
    var ks := AscendingKeys(m, 0, |sorted| + 1);
    if forall j :: 0 <= j < |lines| ==> lines[j].nodeIdx < |sorted| {
      forall i | 0 <= i < |ks|
        ensures ks[i] < |sorted|
      {
        assert ks[i] in ks;
        GroupTapsKeys(lines, ks[i]);
      }
    } else {
      var j :| 0 <= j < |lines| && lines[j].nodeIdx >= |sorted|;
      GroupTapsKeys(lines, lines[j].nodeIdx);
      assert lines[j].nodeIdx in ks;
    }
  }

  /** Every TAP line names a node position, or the fallback 0. */
  lemma AllTapsBounded(edges: seq<EdgeAttrs>, sorted: seq<Keyed<NodeEntry>>)
    ensures forall j :: 0 <= j < |AllTaps(edges, sorted)| ==>
      AllTaps(edges, sorted)[j].nodeIdx < |sorted| || AllTaps(edges, sorted)[j].nodeIdx == 0
  {
    forall j | 0 <= j < |AllTaps(edges, sorted)|
      ensures AllTaps(edges, sorted)[j].nodeIdx < |sorted| || AllTaps(edges, sorted)[j].nodeIdx == 0
    {
      AllTapsIndexBound(edges, sorted, j);
    }
  }

  /** The TAP section fails exactly when there are edges but no nodes. */
  lemma TapGroupsOutcome(edges: seq<EdgeAttrs>, sorted: seq<Keyed<NodeEntry>>)
    ensures TapGroupsOf(edges, sorted).Ok? <==> |sorted| > 0 || |edges| == 0
  {
    AllTapsBounded(edges, sorted);
    GroupLinesOutcome(AllTaps(edges, sorted), sorted);
    if |sorted| == 0 && |edges| > 0 {
      AllTapsIndexBound(edges, sorted, 0);
    }
  }

  /** The generator raises exactly when a node's `id` is not an integer, or
      when there are edges but no nodes: every edge endpoint then falls back
      to index 0, and looking up `sorted_nodes[0]` for the TAP comment fails. */
  lemma Ns3Outcome(g: Graph)
    ensures GenerateNs3(g).Ok? <==>
      (forall i :: 0 <= i < |g.nodes| ==> NodeSortKey(g.nodes[i].1).Ok?) && (|g.nodes| > 0 || |g.edges| == 0)
  {
    if SortedNodes(g.nodes).Ok? {
      TapGroupsOutcome(g.edges, SortedNodes(g.nodes).value);
    }
  }

  /** `main` exits with status 1 exactly when a node's `id` is not an
      integer or there are edges but no nodes. */
  lemma Ns3ExitStatus(g: Graph)
    ensures ExitStatus(GenerateNs3(g)) == 1 <==>
      (exists i :: 0 <= i < |g.nodes| && NodeSortKey(g.nodes[i].1).Err?) || (|g.nodes| == 0 && |g.edges| > 0)
  {
    Ns3Outcome(g);
  }

  // ---- nodes and LANs ----

  /** The program declares one node per graph node; the node comment lists
      the nodes in sorted order (by numeric id, stable on ties); and there is
      exactly one LAN block per edge, the block of edge `i` being
      `csma{i+1}` / `d{i+1}` built from that edge. */
  lemma Ns3Layout(g: Graph)
    requires GenerateNs3(g).Ok?
    ensures SortedNodes(g.nodes).Ok?
    ensures var p := GenerateNs3(g).value;
      var sorted := SortedNodes(g.nodes).value;
      && p.nodeCount == |g.nodes|
      && |p.nodeNames| == |g.nodes|
      && (forall i :: 0 <= i < |g.nodes| ==> p.nodeNames[i] == NodeName(sorted[i].item.1, i))
      && |p.lans| == |g.edges|
      && (forall i :: 0 <= i < |g.edges| ==> p.lans[i] == Lan(i, g.edges[i], sorted))
      && (forall i :: 0 <= i < |g.edges| ==> p.lans[i].lan == i + 1)
  {
    var sorted := SortedNodes(g.nodes).value;
    assert GenerateNs3(g).value == Ns3Program(|sorted|, NodeNames(sorted), Lans(g.edges, sorted), TapGroupsOf(g.edges, sorted).value);
  }

  /** Missing edge attributes default to `100Mbps`, `1ms` and `10.0.{i+1}.*`. */
  lemma LanDefaults(i: nat, e: EdgeAttrs, sorted: seq<Keyed<NodeEntry>>)
    ensures "datarate" !in e ==> Lan(i, e, sorted).rate == "100Mbps"
    ensures "delay" !in e ==> Lan(i, e, sorted).delay == Delay(MilliSeconds, "1")
    ensures "network" !in e ==> Lan(i, e, sorted).network == "10.0." + NatToString(i + 1) + ".*"
  {
    DelayMilliseconds("1ms");
  }

  // ---- TAP naming ----

  /** Default TAP names determine both the node index and the edge index. */
  lemma DefaultTapNameInjective(a: nat, i: nat, b: nat, j: nat)
    ensures DefaultTapName(a, i) == DefaultTapName(b, j) <==> a == b && i == j
  {
    if DefaultTapName(a, i) == DefaultTapName(b, j) {
      var x, y := NatToString(a), NatToString(i);
      var x', y' := NatToString(b), NatToString(j);
      var u, v := x + "_" + y, x' + "_" + y';
      assert DefaultTapName(a, i) == "tap_" + u;
      assert DefaultTapName(b, j) == "tap_" + v;
      assert u == (DefaultTapName(a, i))[4..];
      assert v == (DefaultTapName(b, j))[4..];
      // the first underscore sits right after the node index on both sides
      assert |x| == |x'| by {
        NatToStringHasNo(a, '_');
        NatToStringHasNo(b, '_');
        assert u[|x|] == '_' && v[|x'|] == '_';
      }
      assert x == u[..|x|] == v[..|x'|] == x';
      assert y == u[|x| + 1..] == v[|x'| + 1..] == y';
    }
  }

  /** Default names from different edges never collide. */
  lemma DefaultTapNamesOfDistinctEdgesDiffer(a: nat, i: nat, b: nat, j: nat)
    requires i != j
    ensures DefaultTapName(a, i) != DefaultTapName(b, j)
  {
    DefaultTapNameInjective(a, i, b, j);
  }

  /** An explicit `tap_device_a` / `tap_device_b` attribute names the TAP
      device of that end; otherwise the default name is used. Without
      explicit names, the two ends of one edge share a device name exactly
      when both ends resolve to the same node index. */
  lemma EdgeTapNames(i: nat, e: EdgeAttrs, sorted: seq<Keyed<NodeEntry>>)
    ensures var src, dst := NodeIndex(sorted, Source(e)), NodeIndex(sorted, Target(e));
      && EdgeTaps(i, e, sorted)[0].device == (if "tap_device_a" in e then e["tap_device_a"] else DefaultTapName(src, i))
      && EdgeTaps(i, e, sorted)[1].device == (if "tap_device_b" in e then e["tap_device_b"] else DefaultTapName(dst, i))
      && ("tap_device_a" !in e && "tap_device_b" !in e ==>
            (EdgeTaps(i, e, sorted)[0].device == EdgeTaps(i, e, sorted)[1].device <==> src == dst))
  {
    DefaultTapNameInjective(NodeIndex(sorted, Source(e)), i, NodeIndex(sorted, Target(e)), i);
  }

  // ---- TAP grouping ----

  /** The total number of TAP lines over all groups. */
  function TapLineCount(groups: seq<TapGroup>): nat {
    if |groups| == 0 then 0 else |groups[0].lines| + TapLineCount(groups[1..])
  }

  /** The number of lines of `lines` that belong to one of the nodes `ks`,
      counted node by node. */
  function SumSelect(lines: seq<TapLine>, ks: seq<nat>): nat {
    if |ks| == 0 then 0 else |Select(lines, ks[0])| + SumSelect(lines, ks[1..])
  }

  lemma {:induction false} SumSelectSnoc(lines: seq<TapLine>, t: TapLine, ks: seq<nat>)
    requires forall i, j :: 0 <= i < j < |ks| ==> ks[i] != ks[j]
    ensures SumSelect(lines + [t], ks) == SumSelect(lines, ks) + (if t.nodeIdx in ks then 1 else 0)
  {
    assert (lines + [t])[..|lines|] == lines;
    if |ks| > 0 {
      SumSelectSnoc(lines, t, ks[1..]);
      assert t.nodeIdx in ks <==> t.nodeIdx == ks[0] || t.nodeIdx in ks[1..];
      if t.nodeIdx == ks[0] {
        assert t.nodeIdx !in ks[1..];
      }
    }
  }

  /** Counting node by node over distinct nodes that cover every line
      counts every line once. */
  lemma {:induction false} SumSelectAll(lines: seq<TapLine>, ks: seq<nat>)
    requires forall i, j :: 0 <= i < j < |ks| ==> ks[i] != ks[j]
    requires forall j :: 0 <= j < |lines| ==> lines[j].nodeIdx in ks
    ensures SumSelect(lines, ks) == |lines|
  {
    if |lines| == 0 {
      SumSelectEmpty(ks);
    } else {
      var init := lines[..|lines| - 1];
      var last := lines[|lines| - 1];
      assert lines == init + [last];
      SumSelectAll(init, ks);
      SumSelectSnoc(init, last, ks);
    }
  }

  lemma {:induction false} SumSelectEmpty(ks: seq<nat>)
    ensures SumSelect([], ks) == 0
  {
    if |ks| > 0 {
      SumSelectEmpty(ks[1..]);
    }
  }

  lemma {:induction false} TapLineCountIsSumSelect(
    sorted: seq<Keyed<NodeEntry>>, m: map<nat, seq<TapLine>>, ks: seq<nat>, lines: seq<TapLine>)
    requires forall i :: 0 <= i < |ks| ==> ks[i] in m && m[ks[i]] == Select(lines, ks[i])
    requires TapGroups(sorted, m, ks).Ok?
    ensures TapLineCount(TapGroups(sorted, m, ks).value) == SumSelect(lines, ks)
  {
    if |ks| > 0 {
      TapLineCountIsSumSelect(sorted, m, ks[1..], lines);
    }
  }

  /** The shape of the TAP section: groups in ascending node index, one
      per node that has TAP lines, each holding exactly that node's lines in
      their original order, all lines covered. */
  ghost predicate GroupedByNode(groups: seq<TapGroup>, sorted: seq<Keyed<NodeEntry>>, lines: seq<TapLine>) {
    && (forall i, j :: 0 <= i < j < |groups| ==> groups[i].nodeIdx < groups[j].nodeIdx)
    && (forall i :: 0 <= i < |groups| ==>
          && groups[i].nodeIdx < |sorted|
          && groups[i].name == NodeName(sorted[groups[i].nodeIdx].item.1, groups[i].nodeIdx)
          && groups[i].lines == Select(lines, groups[i].nodeIdx)
          && groups[i].lines != [])
    && (forall j :: 0 <= j < |lines| ==> exists i :: 0 <= i < |groups| && groups[i].nodeIdx == lines[j].nodeIdx)
  }

  /** Every line's node has a group. */
  lemma GroupLinesCover(lines: seq<TapLine>, sorted: seq<Keyed<NodeEntry>>)
    requires GroupLines(lines, sorted).Ok?
    requires forall j :: 0 <= j < |lines| ==> lines[j].nodeIdx < |sorted|
    ensures var groups := GroupLines(lines, sorted).value;
      forall j :: 0 <= j < |lines| ==> exists i :: 0 <= i < |groups| && groups[i].nodeIdx == lines[j].nodeIdx
  {
    var m := GroupTaps(lines);
    var ks := AscendingKeys(m, 0, |sorted| + 1);
    var groups := GroupLines(lines, sorted).value;
    assert groups == TapGroups(sorted, m, ks).value;
    forall j | 0 <= j < |lines|
      ensures exists i :: 0 <= i < |groups| && groups[i].nodeIdx == lines[j].nodeIdx
    {
      GroupTapsKeys(lines, lines[j].nodeIdx);
      var i :| 0 <= i < |ks| && ks[i] == lines[j].nodeIdx;
      assert groups[i].nodeIdx == ks[i];
    }
  }

  /** The groups hold as many lines as there are. */
  lemma GroupLinesCount(lines: seq<TapLine>, sorted: seq<Keyed<NodeEntry>>)
    requires GroupLines(lines, sorted).Ok?
    requires forall j :: 0 <= j < |lines| ==> lines[j].nodeIdx < |sorted|
    ensures TapLineCount(GroupLines(lines, sorted).value) == |lines|
  {
    var m := GroupTaps(lines);
    var ks := AscendingKeys(m, 0, |sorted| + 1);
    forall j | 0 <= j < |lines|
      ensures lines[j].nodeIdx in ks
    {
      GroupTapsKeys(lines, lines[j].nodeIdx);
    }
    forall i | 0 <= i < |ks| ensures ks[i] in m {
      assert ks[i] in ks;
    }
    TapLineCountIsSumSelect(sorted, m, ks, lines);
    SumSelectAll(lines, ks);
  }

  /** Every line's node has a group, and every group holds its node's
      lines: so the groups hold all lines. */
  lemma GroupLinesShape(lines: seq<TapLine>, sorted: seq<Keyed<NodeEntry>>)
    requires GroupLines(lines, sorted).Ok?
    requires forall j :: 0 <= j < |lines| ==> lines[j].nodeIdx < |sorted|
    ensures GroupedByNode(GroupLines(lines, sorted).value, sorted, lines)
    ensures TapLineCount(GroupLines(lines, sorted).value) == |lines|
  {
    var m := GroupTaps(lines);
    var ks := AscendingKeys(m, 0, |sorted| + 1);
    assert GroupLines(lines, sorted).value == TapGroups(sorted, m, ks).value;
    GroupLinesCover(lines, sorted);
    GroupLinesCount(lines, sorted);
  }

  lemma TapGroupsShape(edges: seq<EdgeAttrs>, sorted: seq<Keyed<NodeEntry>>)
    requires TapGroupsOf(edges, sorted).Ok?
    ensures GroupedByNode(TapGroupsOf(edges, sorted).value, sorted, AllTaps(edges, sorted))
    ensures TapLineCount(TapGroupsOf(edges, sorted).value) == 2 * |edges|
  {
    TapGroupsOutcome(edges, sorted);
    AllTapsBounded(edges, sorted);
    GroupLinesShape(AllTaps(edges, sorted), sorted);
  }

  /** Edge `i` contributes two TAP lines, at `2 * i` and `2 * i + 1`:
      its source end (`d{i+1}.Get(0)`) and then its target end
      (`d{i+1}.Get(1)`), each on the node its endpoint resolves to. */
  lemma TapLinesOfEdges(edges: seq<EdgeAttrs>, sorted: seq<Keyed<NodeEntry>>)
    ensures var lines := AllTaps(edges, sorted);
      forall i :: 0 <= i < |edges| ==>
        && lines[2 * i].nodeIdx == NodeIndex(sorted, Source(edges[i]))
        && lines[2 * i].lan == i + 1 && lines[2 * i].end == 0
        && lines[2 * i + 1].nodeIdx == NodeIndex(sorted, Target(edges[i]))
        && lines[2 * i + 1].lan == i + 1 && lines[2 * i + 1].end == 1
  {
    forall i | 0 <= i < |edges|
      ensures AllTaps(edges, sorted)[2 * i] == EdgeTaps(i, edges[i], sorted)[0]
      ensures AllTaps(edges, sorted)[2 * i + 1] == EdgeTaps(i, edges[i], sorted)[1]
    {
      AllTapsAt(edges, sorted, i);
    }
  }

  /** The TAP groups come in ascending node index, one per node that has
      TAP lines; each group holds exactly that node's lines in edge order;
      and there are `2 * |edges|` lines in all. */
  lemma Ns3TapGroups(g: Graph)
    requires GenerateNs3(g).Ok?
    ensures SortedNodes(g.nodes).Ok?
    ensures GroupedByNode(GenerateNs3(g).value.taps, SortedNodes(g.nodes).value, AllTaps(g.edges, SortedNodes(g.nodes).value))
    ensures TapLineCount(GenerateNs3(g).value.taps) == 2 * |g.edges|
  {
    var sorted := SortedNodes(g.nodes).value;
    assert GenerateNs3(g).value.taps == TapGroupsOf(g.edges, sorted).value;
    TapGroupsShape(g.edges, sorted);
  }

  // ---- text ----

  /** Text appended after a prefix keeps it a prefix; the last part is a
      suffix of the whole. */
  lemma FrameOfParts(a: string, b: string, c: string, d: string, e: string, f: string, g: string)
    ensures IsPrefix(a + b, a + b + c + d + e + f + g)
    ensures EndsWith(a + b + c + d + e + f + g, g)
  {
    var t := a + b + c + d + e + f;
    assert (t + g)[..|a + b|] == a + b;
    assert (t + g)[|t|..] == g;
  }

  /** The C++ text opens with the fixed includes and `main` set-up, followed
      by the node declaration, and closes with the simulation run and
      `return 0;`. */
  lemma Ns3Frame(p: Ns3Program)
    ensures IsPrefix(Preamble + NodeHeader(p), RenderNs3(p))
    ensures EndsWith(RenderNs3(p), Epilogue)
  {
    FrameOfParts(Preamble, NodeHeader(p), "\n", LanSection(p), TapPreamble, TapSection(p), Epilogue);
  }
}

=== FILE: ordered_dict.dfy ===
/** Python's insertion-ordered `dict`, as a sequence of (key, value) pairs.

    Assigning to a key that is already present replaces its value but keeps
    the key where it was; a new key goes to the end. Iteration (`.items()`,
    `.keys()`) follows that order. The generators rely on this for the node
    table of a graph and for the node table of the Zenoh configuration.
 */
module OrderedDict {
  import opened Results

  type Dict<K, V> = seq<(K, V)>

  function Keys<K, V>(d: Dict<K, V>): (ks: seq<K>)
    ensures |ks| == |d|
    ensures forall i :: 0 <= i < |d| ==> ks[i] == d[i].0
  {
    if |d| == 0 then [] else [d[0].0] + Keys(d[1..])
  }

  /** No key occurs twice: the shape every real `dict` has. */
  ghost predicate UniqueKeys<K, V>(d: Dict<K, V>) {
    forall i, j :: 0 <= i < j < |d| ==> d[i].0 != d[j].0
  }

  /** `d.get(k)`: the value stored under `k`, if any. */
  function Get<K(==), V>(d: Dict<K, V>, k: K): (r: Option<V>)
    ensures r.None? <==> k !in Keys(d)
    ensures r.Some? ==> (k, r.value) in d
  {
    if |d| == 0 then None
    else if d[0].0 == k then Some(d[0].1)
    else Get(d[1..], k)
  }

  /** `d[k] = v`: an existing key keeps its position, a new key is
      appended. */
  function Put<K(==), V>(d: Dict<K, V>, k: K, v: V): (r: Dict<K, V>)
    ensures Keys(r) == if k in Keys(d) then Keys(d) else Keys(d) + [k]
  {
    if |d| == 0 then [(k, v)]
    else if d[0].0 == k then [(k, v)] + d[1..]
    else
      var rest := Put(d[1..], k, v);
      assert Keys(d) == [d[0].0] + Keys(d[1..]);
      assert Keys([d[0]] + rest) == [d[0].0] + Keys(rest);
      [d[0]] + rest
  }

  /** After `d[k] = v`, `d[k]` is `v` and every other key reads as before. */
  lemma {:induction false} GetPut<K, V>(d: Dict<K, V>, k: K, v: V, k': K)
    ensures Get(Put(d, k, v), k') == if k' == k then Some(v) else Get(d, k')
  {
    if |d| > 0 && d[0].0 != k {
      GetPut(d[1..], k, v, k');
    }
  }

  /** Assignment never creates a duplicate key. */
  lemma PutKeepsKeysUnique<K, V>(d: Dict<K, V>, k: K, v: V)
    requires UniqueKeys(d)
    ensures UniqueKeys(Put(d, k, v))
  {
    var r := Put(d, k, v);
    var kr, kd := Keys(r), Keys(d);
    forall i, j | 0 <= i < j < |r|
      ensures r[i].0 != r[j].0
    {
      assert r[i].0 == kr[i] && r[j].0 == kr[j];
      if j < |d| {
        assert kr[i] == kd[i] == d[i].0 && kr[j] == kd[j] == d[j].0;
      } else {
        // `k` was new and went to the end
        assert k !in kd && kr[j] == k && kr[i] == kd[i];
      }
    }
  }

  /** In a dictionary without repeated keys, an entry's key reads its value. */
  lemma {:induction false} GetEntry<K, V>(d: Dict<K, V>, i: nat)
    requires UniqueKeys(d) && i < |d|
    ensures Get(d, d[i].0) == Some(d[i].1)
  {
    if i > 0 {
      assert d[0].0 != d[i].0;
      GetEntry(d[1..], i - 1);
    }
  }

  /** Assigning a new key appends it. */
  lemma {:induction false} PutAppends<K, V>(d: Dict<K, V>, k: K, v: V)
    requires k !in Keys(d)
    ensures Put(d, k, v) == d + [(k, v)]
  {
    if |d| > 0 {
      assert Keys(d) == [d[0].0] + Keys(d[1..]);
      PutAppends(d[1..], k, v);
      assert d == [d[0]] + d[1..];
    }
  }

  /** After `d[k] = v` the keys are the old ones and `k`. */
  lemma PutKeys<K, V>(d: Dict<K, V>, k: K, v: V, k': K)
    ensures k' in Keys(Put(d, k, v)) <==> k' in Keys(d) || k' == k
  {
  }
}

=== FILE: results.dfy ===
/** Failure-compatible result type shared by the three generators.

    Every exception the generator scripts can raise ends up in the same
    `except Exception` handler of their `main`, which prints the message and
    exits with status 1; `GenError` records which of those exceptions it was.
 */
module Results {

  datatype Option<+T> = None | Some(value: T)

  /** The exceptions the generators can raise on a parsed graph. */
  datatype GenError =
    | InvalidInt(text: string)       // `int(...)` on a string that is not a decimal integer
    | MissingNode(key: string)       // `nodes[...]` with a key that is not a node (KeyError)
    | IndexOutOfRange(index: nat)    // `sorted_nodes[...]` past the end (IndexError)

  datatype Result<+T> = Ok(value: T) | Err(error: GenError) {

    predicate IsFailure() {
      Err?
    }

    function PropagateFailure<U>(): Result<U>
      requires Err?
    {
      Err(error)
    }

    function Extract(): T
      requires Ok?
    {
      value
    }
  }

  /** The exit status `main` ends with: 0 on success, 1 when an exception was caught. */
  function ExitStatus<T>(r: Result<T>): (code: nat)
    ensures code == 0 <==> r.Ok?
    ensures code <= 1
  {
    if r.Ok? then 0 else 1
  }
}

=== FILE: stable_sort.dfy ===
/** Python's `sorted(items, key=...)` with an integer key: ascending by key,
    and stable, so items with equal keys keep their input order.

    Stability is stated through `WithKey`: for every key value, the items
    carrying that key appear in the output in exactly the order they had in
    the input. Together with sortedness this determines the output
    completely (`SortedUnique`).
 */
module StableSort {

  datatype Keyed<T> = Keyed(key: int, item: T)

  ghost predicate SortedByKey<T>(s: seq<Keyed<T>>) {
    forall i, j :: 0 <= i < j < |s| ==> s[i].key <= s[j].key
  }

  /** The items of `s` whose key is `k`, in their order in `s`. */
  function WithKey<T>(s: seq<Keyed<T>>, k: int): seq<Keyed<T>>
  {
    if |s| == 0 then []
    else (if s[0].key == k then [s[0]] else []) + WithKey(s[1..], k)
  }

  /** Places `x` in front of the first item whose key is not smaller. */
  function Insert<T>(x: Keyed<T>, s: seq<Keyed<T>>): (r: seq<Keyed<T>>)
    ensures |r| == |s| + 1
    ensures multiset(r) == multiset(s) + multiset{x}
  {
    if |s| == 0 then [x]
    else if x.key <= s[0].key then [x] + s
    else
      assert s == [s[0]] + s[1..];
      [s[0]] + Insert(x, s[1..])
  }

  lemma {:induction false} InsertSorted<T>(x: Keyed<T>, s: seq<Keyed<T>>)
    requires SortedByKey(s)
    ensures SortedByKey(Insert(x, s))
  {
    if |s| > 0 && x.key > s[0].key {
      InsertSorted(x, s[1..]);
      var rest := Insert(x, s[1..]);
      assert multiset(rest) == multiset(s[1..]) + multiset{x};
      forall y | y in rest
        ensures s[0].key <= y.key
      {
        assert y in multiset(rest);
        if y != x {
          assert y in multiset(s[1..]);
          assert y in s[1..];
        }
      }
    }
  }

  /** `x` goes before every item of `s` with the same key: this is what
      makes the sort stable. */
  lemma {:induction false} InsertWithKey<T>(x: Keyed<T>, s: seq<Keyed<T>>, k: int)
    ensures WithKey(Insert(x, s), k) == if x.key == k then [x] + WithKey(s, k) else WithKey(s, k)
  {
    if |s| == 0 {
    } else if x.key <= s[0].key {
      assert ([x] + s)[1..] == s;
    } else {
      InsertWithKey(x, s[1..], k);
      var rest := Insert(x, s[1..]);
      assert ([s[0]] + rest)[1..] == rest;
    }
  }

  /** `sorted(s, key=...)`. */
  function Sort<T>(s: seq<Keyed<T>>): (r: seq<Keyed<T>>)
    ensures |r| == |s|
    ensures multiset(r) == multiset(s)
    ensures SortedByKey(r)
    ensures forall k :: WithKey(r, k) == WithKey(s, k)
  {
    if |s| == 0 then []
    else
      var rest := Sort(s[1..]);
      assert s == [s[0]] + s[1..];
      InsertSorted(s[0], rest);
      forall k ensures WithKey(Insert(s[0], rest), k) == WithKey(s, k) {
        InsertWithKey(s[0], rest, k);
      }
      Insert(s[0], rest)
  }

  lemma {:induction false} WithKeyMembers<T>(s: seq<Keyed<T>>, k: int)
    ensures forall x :: x in WithKey(s, k) <==> x in s && x.key == k
  {
    if |s| > 0 {
      WithKeyMembers(s[1..], k);
      assert s == [s[0]] + s[1..];
    }
  }

  lemma WithKeyTail<T>(s: seq<Keyed<T>>, k: int)
    requires |s| > 0
    ensures s[0].key == k ==> WithKey(s[1..], k) == WithKey(s, k)[1..]
    ensures s[0].key != k ==> WithKey(s[1..], k) == WithKey(s, k)
  {
    var tail := WithKey(s[1..], k);
    assert ([s[0]] + tail)[1..] == tail;
  }

  /** Sortedness plus per-key order pin the output down: any two sorted
      arrangements that agree on the order of each key's items are equal.
      So `Sort` is the only stable sort. */
  lemma {:induction false} SortedUnique<T>(s: seq<Keyed<T>>, t: seq<Keyed<T>>)
    requires SortedByKey(s) && SortedByKey(t)
    requires forall k :: WithKey(s, k) == WithKey(t, k)
    ensures s == t
  {
    if |s| == 0 || |t| == 0 {
      // an item of the non-empty side would be missing from the other side
      if |s| > 0 {
        WithKeyMembers(s, s[0].key);
      } else if |t| > 0 {
        WithKeyMembers(t, t[0].key);
      }
    } else {
      var m, n := s[0].key, t[0].key;
      WithKeyMembers(s, n);
      WithKeyMembers(t, m);
      assert t[0] in WithKey(t, n);
      assert t[0] in WithKey(s, n);
      assert s[0] in WithKey(s, m);
      assert s[0] in WithKey(t, m);
      assert m <= n && n <= m;
      assert WithKey(s, m)[0] == s[0];
      assert WithKey(t, m)[0] == t[0];
      assert WithKey(s, m) == WithKey(t, m);
      assert s[0] == t[0];
      forall k
        ensures WithKey(s[1..], k) == WithKey(t[1..], k)
      {
        WithKeyTail(s, k);
        WithKeyTail(t, k);
        assert WithKey(s, k) == WithKey(t, k);
      }
      SortedUnique(s[1..], t[1..]);
      assert s == [s[0]] + s[1..];
      assert t == [t[0]] + t[1..];
    }
  }

  /** Sorting an already sorted sequence changes nothing. */
  lemma SortOfSorted<T>(s: seq<Keyed<T>>)
    requires SortedByKey(s)
    ensures Sort(s) == s
  {
    SortedUnique(Sort(s), s);
  }
}

=== FILE: strings.dfy ===
/** The handful of Python `str` operations the generators use, on `seq<char>`. */
module Strings {

  /** `s.endswith(suffix)` */
  predicate EndsWith(s: string, suffix: string) {
    |suffix| <= |s| && s[|s| - |suffix|..] == suffix
  }

  /** `a` is a prefix of `b`: `b.startswith(a)` */
  predicate IsPrefix(a: string, b: string) {
    |a| <= |b| && b[..|a|] == a
  }

  /** A prefix of `a` stays a prefix when text is appended to `a`. */
  lemma PrefixExtends(p: string, a: string, b: string)
    requires IsPrefix(p, a)
    ensures IsPrefix(p, a + b)
  {
    assert (a + b)[..|p|] == a[..|p|];
  }

  /** `"".join(parts)` */
  function Concat(parts: seq<string>): (r: string)
    ensures |parts| == 0 ==> r == ""
  {
    if |parts| == 0 then "" else parts[0] + Concat(parts[1..])
  }

  /** `sep.join(parts)` */
  function Join(parts: seq<string>, sep: string): string
  {
    if |parts| == 0 then ""
    else if |parts| == 1 then parts[0]
    else parts[0] + sep + Join(parts[1..], sep)
  }

  /** `"".join(p + t for p in parts)`: every part followed by the terminator `t`. */
  function Terminated(parts: seq<string>, t: string): string
  {
    if |parts| == 0 then "" else parts[0] + t + Terminated(parts[1..], t)
  }

  /** `s.rstrip(c)` for a single character `c`: the longest prefix of `s`
      that does not end in `c`. */
  function RStrip(s: string, c: char): (r: string)
    ensures |r| <= |s| && r == s[..|r|]
    ensures |r| == 0 || r[|r| - 1] != c
    ensures forall i :: |r| <= i < |s| ==> s[i] == c
  {
    if |s| == 0 || s[|s| - 1] != c then s else RStrip(s[..|s| - 1], c)
  }

  /** `s.split(c)[0]`: the text before the first `c`, or all of `s`. */
  function BeforeFirst(s: string, c: char): (r: string)
    ensures |r| <= |s| && r == s[..|r|]
    ensures c !in r
    ensures |r| < |s| ==> s[|r|] == c
  {
    if |s| == 0 || s[0] == c then "" else [s[0]] + BeforeFirst(s[1..], c)
  }

  /** Joining a non-empty list and then terminating it once equals
      terminating every part. */
  lemma {:induction false} TerminatedIsJoinPlusTerminator(parts: seq<string>, t: string)
    requires |parts| > 0
    ensures Terminated(parts, t) == Join(parts, t) + t
  {
    if |parts| == 1 {
      assert Terminated(parts[1..], t) == "";
    } else {
      TerminatedIsJoinPlusTerminator(parts[1..], t);
    }
  }

  /** Stripping a run of `c` that was appended to text not ending in `c`
      gives the text back. */
  lemma RStripOne(s: string, c: char)
    requires |s| == 0 || s[|s| - 1] != c
    ensures RStrip(s + [c], c) == s
  {
    assert (s + [c])[..|s|] == s;
  }

  /** The "append a comma to every entry, then `rstrip(',')`" idiom of
      `write_json5_config`: when no entry ends in the separator and the text
      before the entries does not either, the result is the entries joined
      by the separator, with no trailing separator. */
  lemma {:induction false} TrailingSeparatorStripped(prefix: string, parts: seq<string>, c: char)
    requires |prefix| == 0 || prefix[|prefix| - 1] != c
    requires forall i :: 0 <= i < |parts| ==> |parts[i]| > 0 && parts[i][|parts[i]| - 1] != c
    ensures RStrip(prefix + Terminated(parts, [c]), c) == prefix + Join(parts, [c])
  {
    if |parts| == 0 {
      assert prefix + Terminated(parts, [c]) == prefix;
      assert prefix + Join(parts, [c]) == prefix;
    } else {
      TerminatedIsJoinPlusTerminator(parts, [c]);
      var body := prefix + Join(parts, [c]);
      JoinEndsWithLast(parts, [c]);
      assert prefix + Terminated(parts, [c]) == body + [c];
      RStripOne(body, c);
    }
  }

  /** A non-empty join ends with the last part. */
  lemma {:induction false} JoinEndsWithLast(parts: seq<string>, sep: string)
    requires |parts| > 0
    ensures EndsWith(Join(parts, sep), parts[|parts| - 1])
  {
    if |parts| > 1 {
      JoinEndsWithLast(parts[1..], sep);
      var rest := Join(parts[1..], sep);
      var last := parts[|parts| - 1];
      assert parts[1..][|parts[1..]| - 1] == last;
      var whole := parts[0] + sep + rest;
      assert whole[|whole| - |last|..] == rest[|rest| - |last|..];
    }
  }

  /** `s.rfind(c)`: the position of the last `c` in `s`, or -1. */
  function RFind(s: string, c: char): (r: int)
    ensures -1 <= r < |s|
    ensures r >= 0 ==> s[r] == c && c !in s[r + 1..]
    ensures r == -1 ==> c !in s
  {
    if |s| == 0 then -1
    else if s[|s| - 1] == c then |s| - 1
    else
      var r := RFind(s[..|s| - 1], c);
      assert s == s[..|s| - 1] + [s[|s| - 1]];
      r
  }

  /** A join starts with its first part. */
  lemma JoinStartsWithFirst(parts: seq<string>, sep: string)
    requires |parts| > 0
    ensures |parts[0]| <= |Join(parts, sep)| && Join(parts, sep)[..|parts[0]|] == parts[0]
  {
    if |parts| > 1 {
      assert Join(parts, sep) == parts[0] + (sep + Join(parts[1..], sep));
    }
  }
}

=== FILE: triangle.dfy ===
/** The three-router triangle whose generated ns-3 program is checked in as
    `topology/test/zenoh.cc`: routers `r1`, `r2`, `r3` with numeric ids 1,
    2, 3, and links r1-r2 (100Mbps, 1ms), r1-r3 (10Mbps, 5ms) and r2-r3
    (50Mbps, 2ms) on networks 10.0.1.*, 10.0.2.* and 10.0.3.*, each with
    explicit TAP device names. */
module Triangle {
  import opened Results
  import opened Strings
  import opened Decimal
  import opened OrderedDict
  import opened StableSort
  import opened Graph
  import opened Ns3Gen

  function Router(n: string): (string, Attrs) {
    ("r" + n, map["id" := n, "name" := "r" + n])
  }

  const Nodes: Dict<string, Attrs> := [Router("1"), Router("2"), Router("3")]

  function Link(id: string, source: string, target: string, rate: string, delay: string,
                network: string, tapA: string, tapB: string): EdgeAttrs
  {
    map["id" := id, "source" := source, "target" := target, "datarate" := rate, "delay" := delay,
        "network" := network, "tap_device_a" := tapA, "tap_device_b" := tapB]
  }

  const Edges: seq<EdgeAttrs> := [
    Link("e1", "r1", "r2", "100Mbps", "1ms", "10.0.1.*", "tap_1_0", "tap_2_0"),
    Link("e2", "r1", "r3", "10Mbps", "5ms", "10.0.2.*", "tap_1_1", "tap_3_0"),
    Link("e3", "r2", "r3", "50Mbps", "2ms", "10.0.3.*", "tap_2_1", "tap_3_1")
  ]

  const Topology: Graph := Graph(Nodes, Edges)

  const Keyed3: seq<Keyed<NodeEntry>> := [Keyed(1, Nodes[0]), Keyed(2, Nodes[1]), Keyed(3, Nodes[2])]

  lemma RouterKey(n: string, v: nat)
    requires ParseInt(n) == Some(v)
    ensures NodeSortKey(Router(n).1) == Ok(v)
  {
  }

  /** Every router's sort key is its numeric id. */
  lemma TriangleKeys()
    ensures KeyNodes(Nodes) == Ok(Keyed3)
  {
    assert ParseInt("1") == Some(1);
    assert ParseInt("2") == Some(2);
    assert ParseInt("3") == Some(3);
    RouterKey("1", 1);
    RouterKey("2", 2);
    RouterKey("3", 3);
    assert Nodes[0] == Router("1") && Nodes[1] == Router("2") && Nodes[2] == Router("3");
    assert forall i :: 0 <= i < |Nodes| ==> NodeSortKey(Nodes[i].1) == Ok(i + 1);
    var keyed := KeyNodes(Nodes).value;
    assert |keyed| == 3;
    assert keyed == Keyed3;
  }

  /** The routers are already in numeric-id order, so sorting keeps them. */
  lemma TriangleSorted()
    ensures SortedNodes(Nodes) == Ok(Keyed3)
  {
    TriangleKeys();
    Keyed3Sorted();
    SortedNodesOfSorted(Nodes, Keyed3);
  }

  lemma Keyed3Sorted()
    ensures SortedByKey(Keyed3)
  {
    assert Keyed3[0].key == 1 && Keyed3[1].key == 2 && Keyed3[2].key == 3;
  }

  /** Nodes whose keys already ascend come out of the sort unchanged. */
  lemma SortedNodesOfSorted(nodes: Dict<string, Attrs>, keyed: seq<Keyed<NodeEntry>>)
    requires KeyNodes(nodes) == Ok(keyed) && SortedByKey(keyed)
    ensures SortedNodes(nodes) == Ok(keyed)
  {
    SortOfSorted(keyed);
  }

  /** Each router's position in the sorted node list. */
  lemma TriangleIndices()
    ensures NodeIndex(Keyed3, "r1") == 0
    ensures NodeIndex(Keyed3, "r2") == 1
    ensures NodeIndex(Keyed3, "r3") == 2
  {
    assert Keyed3[0].item.0 == "r1" && Keyed3[1].item.0 == "r2" && Keyed3[2].item.0 == "r3";
    assert "r1" != "r2" && "r1" != "r3" && "r2" != "r3";
  }

  const Lans3: seq<CsmaBlock> := [
    CsmaBlock(1, "10.0.1.*", "r1", "r2", "100Mbps", Delay(MilliSeconds, "1"), 0, 1),
    CsmaBlock(2, "10.0.2.*", "r1", "r3", "10Mbps", Delay(MilliSeconds, "5"), 0, 2),
    CsmaBlock(3, "10.0.3.*", "r2", "r3", "50Mbps", Delay(MilliSeconds, "2"), 1, 2)
  ]

  /** The attributes a link carries, as the generators read them. */
  lemma LinkAttrs(id: string, source: string, target: string, rate: string, delay: string,
                  network: string, tapA: string, tapB: string)
    ensures var e := Link(id, source, target, rate, delay, network, tapA, tapB);
      && Source(e) == source && Target(e) == target
      && "network" in e && e["network"] == network
      && "datarate" in e && e["datarate"] == rate
      && "delay" in e && e["delay"] == delay
      && "tap_device_a" in e && e["tap_device_a"] == tapA
      && "tap_device_b" in e && e["tap_device_b"] == tapB
  {
  }

  lemma LanOfLink(i: nat, id: string, source: string, target: string, rate: string, digits: string,
                  network: string, tapA: string, tapB: string, si: nat, ti: nat)
    requires NodeIndex(Keyed3, source) == si && NodeIndex(Keyed3, target) == ti
    ensures Lan(i, Link(id, source, target, rate, digits + "ms", network, tapA, tapB), Keyed3) ==
      CsmaBlock(i + 1, network, source, target, rate, Delay(MilliSeconds, digits), si, ti)
  {
    var delay := digits + "ms";
    LinkAttrs(id, source, target, rate, delay, network, tapA, tapB);
    assert delay[..|delay| - 2] == digits;
    assert EndsWith(delay, "ms") by {
      assert delay[|delay| - 2..] == "ms";
    }
    DelayMilliseconds(delay);
  }

  lemma TriangleLan0()
    ensures Lan(0, Edges[0], Keyed3) == Lans3[0]
  {
    TriangleIndices();
    assert "1ms" == "1" + "ms";
    LanOfLink(0, "e1", "r1", "r2", "100Mbps", "1", "10.0.1.*", "tap_1_0", "tap_2_0", 0, 1);
  }

  lemma TriangleLan1()
    ensures Lan(1, Edges[1], Keyed3) == Lans3[1]
  {
    TriangleIndices();
    assert "5ms" == "5" + "ms";
    LanOfLink(1, "e2", "r1", "r3", "10Mbps", "5", "10.0.2.*", "tap_1_1", "tap_3_0", 0, 2);
  }

  lemma TriangleLan2()
    ensures Lan(2, Edges[2], Keyed3) == Lans3[2]
  {
    TriangleIndices();
    assert "2ms" == "2" + "ms";
    LanOfLink(2, "e3", "r2", "r3", "50Mbps", "2", "10.0.3.*", "tap_2_1", "tap_3_1", 1, 2);
  }

  /** The three LAN blocks: rates 100, 10 and 50 Mbps, delays 1, 5 and 2 ms. */
  lemma TriangleLans()
    ensures Lans(Edges, Keyed3) == Lans3
  {
    TriangleLan0();
    TriangleLan1();
    TriangleLan2();
    var lans := Lans(Edges, Keyed3);
    assert lans == Lans3 by {
      assert |lans| == 3 && lans[0] == Lans3[0] && lans[1] == Lans3[1] && lans[2] == Lans3[2];
    }
  }

  // ---- TAP bridges ----

  lemma TapsOfLink(i: nat, id: string, source: string, target: string, rate: string, delay: string,
                   network: string, tapA: string, tapB: string)
    ensures EdgeTaps(i, Link(id, source, target, rate, delay, network, tapA, tapB), Keyed3) ==
      [TapLine(tapA, NodeIndex(Keyed3, source), i + 1, 0), TapLine(tapB, NodeIndex(Keyed3, target), i + 1, 1)]
  {
    LinkAttrs(id, source, target, rate, delay, network, tapA, tapB);
  }

  /** The TAP lines of each link: explicit device names, the source end on
      device 0 of the link's container. */
  const TapPair0: seq<TapLine> := [TapLine("tap_1_0", 0, 1, 0), TapLine("tap_2_0", 1, 1, 1)]
  const TapPair1: seq<TapLine> := [TapLine("tap_1_1", 0, 2, 0), TapLine("tap_3_0", 2, 2, 1)]
  const TapPair2: seq<TapLine> := [TapLine("tap_2_1", 1, 3, 0), TapLine("tap_3_1", 2, 3, 1)]

  /** The six TAP lines, in the order the edge loop appends them. */
  const Taps6: seq<TapLine> := TapPair0 + TapPair1 + TapPair2

  lemma TriangleTapPair0()
    ensures EdgeTaps(0, Edges[0], Keyed3) == TapPair0
  {
    TriangleIndices();
    TapsOfLink(0, "e1", "r1", "r2", "100Mbps", "1ms", "10.0.1.*", "tap_1_0", "tap_2_0");
  }

  lemma TriangleTapPair1()
    ensures EdgeTaps(1, Edges[1], Keyed3) == TapPair1
  {
    TriangleIndices();
    TapsOfLink(1, "e2", "r1", "r3", "10Mbps", "5ms", "10.0.2.*", "tap_1_1", "tap_3_0");
  }

  lemma TriangleTapPair2()
    ensures EdgeTaps(2, Edges[2], Keyed3) == TapPair2
  {
    TriangleIndices();
    TapsOfLink(2, "e3", "r2", "r3", "50Mbps", "2ms", "10.0.3.*", "tap_2_1", "tap_3_1");
  }

  /** Edge `i` of a list contributes the pair `p`. */
  lemma AllTapsPairAt(edges: seq<EdgeAttrs>, sorted: seq<Keyed<NodeEntry>>, i: nat, p: seq<TapLine>)
    requires i < |edges|
    requires EdgeTaps(i, edges[i], sorted) == p
    ensures AllTaps(edges, sorted)[2 * i] == p[0] && AllTaps(edges, sorted)[2 * i + 1] == p[1]
  {
    AllTapsAt(edges, sorted, i);
  }

  lemma AllTapsOfThree(edges: seq<EdgeAttrs>, sorted: seq<Keyed<NodeEntry>>, p0: seq<TapLine>, p1: seq<TapLine>, p2: seq<TapLine>)
    requires |edges| == 3
    requires EdgeTaps(0, edges[0], sorted) == p0
    requires EdgeTaps(1, edges[1], sorted) == p1
    requires EdgeTaps(2, edges[2], sorted) == p2
    ensures AllTaps(edges, sorted) == p0 + p1 + p2
  {
    AllTapsPairAt(edges, sorted, 0, p0);
    AllTapsPairAt(edges, sorted, 1, p1);
    AllTapsPairAt(edges, sorted, 2, p2);
    assert |AllTaps(edges, sorted)| == |p0 + p1 + p2| == 6;
  }

  lemma TriangleTaps()
    ensures AllTaps(Edges, Keyed3) == Taps6
  {
    TriangleTapPair0();
    TriangleTapPair1();
    TriangleTapPair2();
    AllTapsOfThree(Edges, Keyed3, TapPair0, TapPair1, TapPair2);
  }

  lemma SelectSnoc(lines: seq<TapLine>, t: TapLine, k: nat)
    ensures Select(lines + [t], k) == Select(lines, k) + (if t.nodeIdx == k then [t] else [])
  {
    assert (lines + [t])[..|lines|] == lines;
  }

  /** Each router's TAP lines: two per router, in edge order. */
  lemma TriangleSelect(k: nat)
    ensures Select(Taps6, k) ==
      if k == 0 then [Taps6[0], Taps6[2]]
      else if k == 1 then [Taps6[1], Taps6[4]]
      else if k == 2 then [Taps6[3], Taps6[5]]
      else []
  {
    var t := Taps6;
    assert Select([], k) == [];
    SelectSnoc([], t[0], k);
    SelectSnoc([t[0]], t[1], k);
    SelectSnoc([t[0], t[1]], t[2], k);
    SelectSnoc([t[0], t[1], t[2]], t[3], k);
    SelectSnoc([t[0], t[1], t[2], t[3]], t[4], k);
    SelectSnoc([t[0], t[1], t[2], t[3], t[4]], t[5], k);
    assert [t[0]] == [] + [t[0]];
    assert [t[0], t[1]] == [t[0]] + [t[1]];
    assert [t[0], t[1], t[2]] == [t[0], t[1]] + [t[2]];
    assert [t[0], t[1], t[2], t[3]] == [t[0], t[1], t[2]] + [t[3]];
    assert [t[0], t[1], t[2], t[3], t[4]] == [t[0], t[1], t[2], t[3]] + [t[4]];
    assert t == [t[0], t[1], t[2], t[3], t[4]] + [t[5]];
  }

  /** The routers' names, as the node comment and the TAP group comments
      spell them. */
  lemma TriangleNames()
    ensures NodeName(Keyed3[0].item.1, 0) == "r1"
    ensures NodeName(Keyed3[1].item.1, 1) == "r2"
    ensures NodeName(Keyed3[2].item.1, 2) == "r3"
  {
  }

  lemma AscendingKeysOfThree(m: map<nat, seq<TapLine>>)
    requires 0 in m && 1 in m && 2 in m && 3 !in m
    ensures AscendingKeys(m, 0, 4) == [0, 1, 2]
  {
    assert AscendingKeys(m, 4, 4) == [];
    assert AscendingKeys(m, 3, 4) == [];
    assert AscendingKeys(m, 2, 4) == [2];
    assert AscendingKeys(m, 1, 4) == [1, 2];
  }

  /** Walking the keys 0, 1, 2 of a three-node list yields their groups. */
  lemma TapGroupsOfThree(sorted: seq<Keyed<NodeEntry>>, m: map<nat, seq<TapLine>>)
    requires |sorted| == 3
    requires 0 in m && 1 in m && 2 in m
    ensures TapGroups(sorted, m, [0, 1, 2]) == Ok([
      TapGroup(0, NodeName(sorted[0].item.1, 0), m[0]),
      TapGroup(1, NodeName(sorted[1].item.1, 1), m[1]),
      TapGroup(2, NodeName(sorted[2].item.1, 2), m[2])])
  {
    var r := TapGroups(sorted, m, [0, 1, 2]);
    var want := [
      TapGroup(0, NodeName(sorted[0].item.1, 0), m[0]),
      TapGroup(1, NodeName(sorted[1].item.1, 1), m[1]),
      TapGroup(2, NodeName(sorted[2].item.1, 2), m[2])];
    assert r.Ok? && |r.value| == 3;
    assert r.value[0] == want[0] && r.value[1] == want[1] && r.value[2] == want[2];
    assert r.value == want;
  }

  /** Lines for exactly the nodes 0, 1 and 2 of a three-node list form
      three groups in that order. */
  lemma GroupLinesOfThree(lines: seq<TapLine>, sorted: seq<Keyed<NodeEntry>>,
                          g0: seq<TapLine>, g1: seq<TapLine>, g2: seq<TapLine>)
    requires |sorted| == 3
    requires Select(lines, 0) == g0 && g0 != []
    requires Select(lines, 1) == g1 && g1 != []
    requires Select(lines, 2) == g2 && g2 != []
    requires Select(lines, 3) == []
    ensures GroupLines(lines, sorted) == Ok([
      TapGroup(0, NodeName(sorted[0].item.1, 0), g0),
      TapGroup(1, NodeName(sorted[1].item.1, 1), g1),
      TapGroup(2, NodeName(sorted[2].item.1, 2), g2)])
  {
    var m := GroupTaps(lines);
    assert 0 in m && 1 in m && 2 in m && 3 !in m;
    assert m[0] == g0 && m[1] == g1 && m[2] == g2;
    AscendingKeysOfThree(m);
    TapGroupsOfThree(sorted, m);
  }

  const Groups3: seq<TapGroup> := [
    TapGroup(0, "r1", [Taps6[0], Taps6[2]]),
    TapGroup(1, "r2", [Taps6[1], Taps6[4]]),
    TapGroup(2, "r3", [Taps6[3], Taps6[5]])
  ]

  /** Every router gets one TAP group with the two ends it owns. */
  lemma TriangleGroups()
    ensures GroupLines(Taps6, Keyed3) == Ok(Groups3)
  {
    TriangleSelect(0);
    TriangleSelect(1);
    TriangleSelect(2);
    TriangleSelect(3);
    TriangleNames();
    GroupLinesOfThree(Taps6, Keyed3, [Taps6[0], Taps6[2]], [Taps6[1], Taps6[4]], [Taps6[3], Taps6[5]]);
  }

  // ---- the whole program ----

  /** How `GenerateNs3` assembles a program once both steps succeed. */
  lemma GenerateNs3Of(g: Graph, sorted: seq<Keyed<NodeEntry>>, groups: seq<TapGroup>)
    requires SortedNodes(g.nodes) == Ok(sorted)
    requires TapGroupsOf(g.edges, sorted) == Ok(groups)
    ensures GenerateNs3(g) == Ok(Ns3Program(|sorted|, NodeNames(sorted), Lans(g.edges, sorted), groups))
  {
  }

  lemma TriangleNodeNames()
    ensures NodeNames(Keyed3) == ["r1", "r2", "r3"]
  {
    TriangleNames();
    assert |NodeNames(Keyed3)| == 3;
  }

  /** The triangle's program: three nodes named r1, r2, r3; the three LANs
      with their own rates and delays; and two TAP lines per router, one
      per link it is on. */
  lemma TriangleProgram()
    ensures GenerateNs3(Topology) == Ok(Ns3Program(3, ["r1", "r2", "r3"], Lans3, Groups3))
  {
    TriangleSorted();
    TriangleTaps();
    TriangleGroups();
    TriangleLans();
    TriangleNodeNames();
    GenerateNs3Of(Topology, Keyed3, Groups3);
  }
}

=== FILE: zenoh_gen.dfy ===
/** `generate_zenoh_config.py`: from the topology graph to the Zenoh
    experiment configuration and its JSON5 text.

    Every node becomes a router listening on one TCP endpoint per edge that
    touches it; every edge becomes a link between the numeric ids of its two
    ends. The configuration is written as JSON5 by a hand-made template.
 */
module ZenohGen {
  import opened Results
  import opened Strings
  import opened Decimal
  import opened OrderedDict
  import opened Graph

  /** Network used when an edge has no `network` attribute. */
  const DefaultNetwork: string := "10.0.1.*"

  /** A node with numeric id `n` listens on port `BasePort + n`. */
  const BasePort: int := 8000

  const ImageTag: string := "eclipse/zenoh:1.4.0"

  const RouterRole: string := "router"

  /** `tcp/<ip>:<port>` */
  datatype Endpoint = Endpoint(ip: string, port: int)

  /** The `zid` entry of a node: `{set: True, value: ...}`. */
  datatype Zid = Zid(isSet: bool, value: string)

  datatype ZenohNode = ZenohNode(zid: Zid, listen: seq<Endpoint>, role: string)

  /** `{"a": ..., "a_idx": ..., "b": ..., "b_idx": ...}` */
  datatype Link = Link(a: string, aIdx: nat, b: string, bIdx: nat)

  /** The `config` dictionary. `nodes` is keyed by the nodes' numeric id
      text, in insertion order. */
  datatype ZenohConfig = ZenohConfig(
    experiment: string, tag: string, cleanFirst: bool, volume: string,
    nodes: Dict<string, ZenohNode>, links: seq<Link>)

  // ---- endpoints ----

  /** `network.split("*")[0].rstrip(".")`: the address prefix of a
      `a.b.c.*` pattern. */
  function BaseIp(network: string): (r: string)
    ensures |r| <= |network| && r == network[..|r|]
    ensures '*' !in r
    ensures |r| == 0 || r[|r| - 1] != '.'
  {
    RStrip(BeforeFirst(network, '*'), '.')
  }

  /** For a pattern `<prefix>.*`, the base address is the prefix. */
  lemma BaseIpOfPattern(prefix: string, rest: string)
    requires '*' !in prefix
    requires |prefix| == 0 || prefix[|prefix| - 1] != '.'
    ensures BaseIp(prefix + ".*" + rest) == prefix
  {
    var network := prefix + ".*" + rest;
    assert network[|prefix| + 1] == '*';
    assert forall i :: 0 <= i <= |prefix| ==> network[i] != '*' by {
      assert forall i :: 0 <= i < |prefix| ==> network[i] == prefix[i] && prefix[i] in prefix;
    }
    assert BeforeFirst(network, '*') == prefix + ".";
    RStripOne(prefix, '.');
  }

  /** The endpoint one edge gives the node with numeric id `id`: the host
      `id + 1` on the edge's network, port `8000 + id`. */
  function EdgeEndpoint(e: EdgeAttrs, id: int): Endpoint {
    Endpoint(BaseIp(AttrOr(e, "network", DefaultNetwork)) + "." + IntToString(id + 1), BasePort + id)
  }

  /** `e` touches the node with dictionary key `key`. */
  predicate Touches(e: EdgeAttrs, key: string) {
    Source(e) == key || Target(e) == key
  }

  /** The edges touching `key`, in order. */
  function Incident(edges: seq<EdgeAttrs>, key: string): (r: seq<EdgeAttrs>)
    ensures |r| <= |edges|
    ensures forall e :: e in r <==> e in edges && Touches(e, key)
  {
    if |edges| == 0 then []
    else (if Touches(edges[0], key) then [edges[0]] else []) + Incident(edges[1..], key)
  }

  /** The endpoints a node with numeric id `id` gets from the edges `es`,
      one per edge, in order. */
  function EdgeEndpoints(es: seq<EdgeAttrs>, id: int): (r: seq<Endpoint>)
    ensures |r| == |es|
    ensures forall i :: 0 <= i < |es| ==> r[i] == EdgeEndpoint(es[i], id)
  {
    if |es| == 0 then [] else [EdgeEndpoint(es[0], id)] + EdgeEndpoints(es[1..], id)
  }

  /** The loop of `extract_listen_endpoints` once the numeric id text is
      known. The `if source ... elif target ...` chain adds one endpoint per
      touching edge, so a self-loop counts once; `int()` is only evaluated
      for touching edges. */
  function EndpointsFor(idText: string, key: string, edges: seq<EdgeAttrs>): (r: Result<seq<Endpoint>>)
    ensures r.Ok? <==> ParseInt(idText).Some? || Incident(edges, key) == []
    ensures r.Err? ==> r.error == InvalidInt(idText)
  {
    if |edges| == 0 then Ok([])
    else if Source(edges[0]) == key || Target(edges[0]) == key then
      match ParseInt(idText)
      case None => Err(InvalidInt(idText))
      case Some(id) =>
        match EndpointsFor(idText, key, edges[1..])
        case Err(e) => Err(e)
        case Ok(rest) => Ok([EdgeEndpoint(edges[0], id)] + rest)
    else EndpointsFor(idText, key, edges[1..])
  }

  /** Filtering the touching edges first and mapping them to endpoints
      afterwards gives the same list as the loop. */
  lemma {:induction false} EndpointsForValue(idText: string, key: string, edges: seq<EdgeAttrs>)
    requires ParseInt(idText).Some?
    ensures EndpointsFor(idText, key, edges) == Ok(EdgeEndpoints(Incident(edges, key), ParseInt(idText).value))
  {
    if |edges| > 0 {
      var id := ParseInt(idText).value;
      var rest := Incident(edges[1..], key);
      EndpointsForValue(idText, key, edges[1..]);
      if Touches(edges[0], key) {
        var touching := Incident(edges, key);
        assert touching == [edges[0]] + rest;
        assert touching[0] == edges[0] && touching[1..] == rest;
        assert EdgeEndpoints(touching, id) == [EdgeEndpoint(edges[0], id)] + EdgeEndpoints(rest, id);
      } else {
        assert Incident(edges, key) == rest;
      }
    }
  }

  /** `nodes[node_id].get("id", "0")`, failing when `node_id` is not a node. */
  function IdTextOf(nodes: Dict<string, Attrs>, key: string): (r: Result<string>)
    ensures r.Ok? <==> key in Keys(nodes)
    ensures r.Err? ==> r.error == MissingNode(key)
  {
    match Get(nodes, key)
    case None => Err(MissingNode(key))
    case Some(attrs) => Ok(IdText(attrs))
  }

  /** `extract_listen_endpoints(node_id, edges, nodes)`. */
  function ListenEndpoints(key: string, edges: seq<EdgeAttrs>, nodes: Dict<string, Attrs>): Result<seq<Endpoint>>
  {
    var idText :- IdTextOf(nodes, key);
    EndpointsFor(idText, key, edges)
  }

  // ---- the configuration ----

  /** `node_data.get("id", "0")`: the numeric id text of a node. */
  function IdText(attrs: Attrs): string {
    AttrOr(attrs, "id", "0")
  }

  /** The configuration entry of the node with dictionary key `key`. */
  function NodeEntry(key: string, listen: seq<Endpoint>, zid: string -> string): ZenohNode {
    ZenohNode(Zid(true, zid(key)), listen, RouterRole)
  }

  /** The node loop of `generate_zenoh_config` over the first entries of
      `nodes`: each entry is stored under its numeric id text; a repeated id
      text overwrites the earlier entry where it stands. */
  function NodeTable(entries: Dict<string, Attrs>, nodes: Dict<string, Attrs>, edges: seq<EdgeAttrs>,
                     zid: string -> string): (r: Result<Dict<string, ZenohNode>>)
    ensures r.Ok? ==> UniqueKeys(r.value)
  {
    if |entries| == 0 then Ok([])
    else
      var init := entries[..|entries| - 1];
      var last := entries[|entries| - 1];
      match NodeTable(init, nodes, edges, zid)
      case Err(e) => Err(e)
      case Ok(prior) =>
        match ListenEndpoints(last.0, edges, nodes)
        case Err(e) => Err(e)
        case Ok(listen) =>
          var k := IdText(last.1);
          var n := NodeEntry(last.0, listen, zid);
          assert forall i :: 0 <= i < |init| ==> init[i] == entries[i];
          PutKeepsKeysUnique(prior, k, n);
          Ok(Put(prior, k, n))
  }

  /** The numeric id texts of `entries`, in order. */
  function IdTexts(entries: Dict<string, Attrs>): (r: seq<string>)
    ensures |r| == |entries|
    ensures forall i :: 0 <= i < |entries| ==> r[i] == IdText(entries[i].1)
  {
    if |entries| == 0 then [] else IdTexts(entries[..|entries| - 1]) + [IdText(entries[|entries| - 1].1)]
  }

  /** One step of the node loop: the last entry's endpoints are computed
      after the earlier entries, and its entry is put under its id text. */
  lemma NodeTableStep(entries: Dict<string, Attrs>, nodes: Dict<string, Attrs>, edges: seq<EdgeAttrs>,
                      zid: string -> string)
    requires |entries| > 0
    ensures var init, last := entries[..|entries| - 1], entries[|entries| - 1];
      && (NodeTable(entries, nodes, edges, zid).Ok? <==>
            NodeTable(init, nodes, edges, zid).Ok? && ListenEndpoints(last.0, edges, nodes).Ok?)
      && (NodeTable(entries, nodes, edges, zid).Ok? ==>
            NodeTable(entries, nodes, edges, zid).value ==
              Put(NodeTable(init, nodes, edges, zid).value, IdText(last.1),
                  NodeEntry(last.0, ListenEndpoints(last.0, edges, nodes).value, zid)))
  {
  }

  /** The configuration has one node entry per distinct numeric id text. */
  lemma {:induction false} NodeTableKeys(entries: Dict<string, Attrs>, nodes: Dict<string, Attrs>, edges: seq<EdgeAttrs>,
                                         zid: string -> string)
    requires NodeTable(entries, nodes, edges, zid).Ok?
    ensures forall k :: k in Keys(NodeTable(entries, nodes, edges, zid).value) <==> k in IdTexts(entries)
  {
    if |entries| > 0 {
      var init := entries[..|entries| - 1];
      var last := entries[|entries| - 1];
      NodeTableStep(entries, nodes, edges, zid);
      NodeTableKeys(init, nodes, edges, zid);
      assert IdTexts(entries) == IdTexts(init) + [IdText(last.1)];
    }
  }

  /** One iteration of the link loop: both ends must be nodes; the
      endpoint lists are recomputed (and discarded), and the link joins the
      two numeric ids with index 0 on both sides. */
  function LinkOf(e: EdgeAttrs, nodes: Dict<string, Attrs>, edges: seq<EdgeAttrs>): (r: Result<Link>)
    ensures r.Ok? ==> r.value.aIdx == 0 && r.value.bIdx == 0
  {
    var a :- IdTextOf(nodes, Source(e));
    var b :- IdTextOf(nodes, Target(e));
    var sourceEndpoints :- ListenEndpoints(Source(e), edges, nodes);
    var targetEndpoints :- ListenEndpoints(Target(e), edges, nodes);
    Ok(Link(a, 0, b, 0))
  }

  /** The link loop over the first entries of `edges`. */
  function Links(es: seq<EdgeAttrs>, nodes: Dict<string, Attrs>, edges: seq<EdgeAttrs>): (r: Result<seq<Link>>)
    ensures r.Ok? <==> forall i :: 0 <= i < |es| ==> LinkOf(es[i], nodes, edges).Ok?
    ensures r.Ok? ==> |r.value| == |es|
    ensures r.Ok? ==> forall i :: 0 <= i < |es| ==> r.value[i] == LinkOf(es[i], nodes, edges).value
  {
    if |es| == 0 then Ok([])
    else
      var link :- LinkOf(es[0], nodes, edges);
      var rest :- Links(es[1..], nodes, edges);
      Ok([link] + rest)
  }

  /** `generate_zenoh_config(nodes, edges, experiment_name, zenoh_binary_path)`;
      `zid` stands for `generate_zid`. */
  function GenerateZenoh(g: Graph, experiment: string, volume: string, zid: string -> string): Result<ZenohConfig>
  {
    var table :- NodeTable(g.nodes, g.nodes, g.edges, zid);
    var links :- Links(g.edges, g.nodes, g.edges);
    Ok(ZenohConfig(experiment, ImageTag, false, volume, table, links))
  }

  /** `GenerateZenoh` succeeds when the node loop and the link loop both
      do, and then assembles their results. */
  lemma GenerateZenohParts(g: Graph, experiment: string, volume: string, zid: string -> string)
    ensures GenerateZenoh(g, experiment, volume, zid).Ok? <==>
      NodeTable(g.nodes, g.nodes, g.edges, zid).Ok? && Links(g.edges, g.nodes, g.edges).Ok?
    ensures GenerateZenoh(g, experiment, volume, zid).Ok? ==>
      GenerateZenoh(g, experiment, volume, zid).value ==
        ZenohConfig(experiment, ImageTag, false, volume,
                    NodeTable(g.nodes, g.nodes, g.edges, zid).value, Links(g.edges, g.nodes, g.edges).value)
  {
  }

  // ---- the JSON5 text ----

  function EndpointText(ep: Endpoint): string {
    "tcp/" + ep.ip + ":" + IntToString(ep.port)
  }

  function QuotedEndpoints(eps: seq<Endpoint>): (r: seq<string>)
    ensures |r| == |eps|
    ensures forall i :: 0 <= i < |eps| ==> r[i] == "\"" + EndpointText(eps[i]) + "\""
  {
    if |eps| == 0 then [] else ["\"" + EndpointText(eps[0]) + "\""] + QuotedEndpoints(eps[1..])
  }

  /** Separator between listen endpoints: a comma, a line break and twelve
      spaces (the first endpoint is indented by sixteen). */
  const EndpointSeparator: string := ",\n            "

  function Header(c: ZenohConfig): string {
    "{\n    experiment: \"" + c.experiment + "\",\n\n"
    + "    docker_image: {\n"
    + "        tag: \"" + c.tag + "\",\n"
    + "        clean_first: " + (if c.cleanFirst then "true" else "false") + "\n"
    + "    },\n\n"
    + "    volume: \"" + c.volume + "\",\n\n"
    + "    nodes: {"
  }

  /** One node's block, without the comma the template puts after it. */
  function NodeBlock(key: string, n: ZenohNode): string {
    "\n        \"" + key + "\": {\n"
    + "            zid: {set: true, value: \"" + n.zid.value + "\"},\n"
    + "            listen_endpoints: [\n"
    + "                " + Join(QuotedEndpoints(n.listen), EndpointSeparator) + "\n"
    + "            ],\n"
    + "            role: \"" + n.role + "\"\n"
    + "        }"
  }

  const Middle: string := "\n    },\n\n    links: ["

  /** One link's line, without its trailing comma. */
  function LinkLine(l: Link): string {
    "\n        { a: \"" + l.a + "\", a_idx: " + NatToString(l.aIdx)
    + ", b: \"" + l.b + "\", b_idx: " + NatToString(l.bIdx) + " }"
  }

  const Footer: string := "\n    ]\n}\n"

  function NodeBlocks(nodes: Dict<string, ZenohNode>): (r: seq<string>)
    ensures |r| == |nodes|
    ensures forall i :: 0 <= i < |nodes| ==> r[i] == NodeBlock(nodes[i].0, nodes[i].1)
  {
    if |nodes| == 0 then [] else [NodeBlock(nodes[0].0, nodes[0].1)] + NodeBlocks(nodes[1..])
  }

  function LinkLines(links: seq<Link>): (r: seq<string>)
    ensures |r| == |links|
    ensures forall i :: 0 <= i < |links| ==> r[i] == LinkLine(links[i])
  {
    if |links| == 0 then [] else [LinkLine(links[0])] + LinkLines(links[1..])
  }

  /** `write_json5_config` as written: every block is followed by a comma,
      and the trailing commas are removed with `rstrip(",")` before each
      closing bracket. */
  function RenderJson5(c: ZenohConfig): string {
    var text := Header(c) + Terminated(NodeBlocks(c.nodes), ",");
    var text := RStrip(text, ',') + Middle;
    var text := text + Terminated(LinkLines(c.links), ",");
    RStrip(text, ',') + Footer
  }
}

=== FILE: zenoh_props.dfy ===
/** What `generate_zenoh_config` and `write_json5_config` guarantee: when
    generation fails, which endpoints a node listens on, how the node table
    is keyed, what the links are, and the shape of the JSON5 text.

    Lemmas about a whole graph assume its node dictionary has no repeated
    key, as every Python `dict` (and every graph `parse_graphml` returns,
    see `Graph.Extract`) has.
 */
module ZenohProperties {
  import opened Results
  import opened Strings
  import opened Decimal
  import opened OrderedDict
  import opened Graph
  import opened ZenohGen

  // ---- endpoints ----

  /** An edge on network `<prefix>.*` gives the node with numeric id `id`
      the address `<prefix>.<id + 1>` and the port `8000 + id`. */
  lemma EndpointAddress(e: EdgeAttrs, id: int, prefix: string)
    requires '*' !in prefix
    requires |prefix| == 0 || prefix[|prefix| - 1] != '.'
    requires AttrOr(e, "network", DefaultNetwork) == prefix + ".*"
    ensures EdgeEndpoint(e, id) == Endpoint(prefix + "." + IntToString(id + 1), 8000 + id)
  {
    BaseIpOfPattern(prefix, "");
    assert prefix + ".*" + "" == prefix + ".*";
  }

  /** The default network `10.0.1.*` has the base address `10.0.1`. */
  lemma DefaultBaseIp()
    ensures BaseIp(DefaultNetwork) == "10.0.1"
  {
    var prefix := "10.0.1";
    assert '*' !in prefix;
    assert DefaultNetwork == prefix + ".*" + "";
    BaseIpOfPattern(prefix, "");
  }

  /** Without a `network` attribute the address is `10.0.1.<id + 1>`. */
  lemma DefaultEndpointAddress(e: EdgeAttrs, id: int)
    requires "network" !in e
    ensures EdgeEndpoint(e, id) == Endpoint("10.0.1" + "." + IntToString(id + 1), 8000 + id)
  {
    DefaultBaseIp();
  }

  /** A self-loop gives its node a single endpoint: the target test is an
      `elif` of the source test. */
  lemma SelfLoopOneEndpoint(idText: string, e: EdgeAttrs, id: int)
    requires Source(e) == Target(e)
    requires ParseInt(idText) == Some(id)
    ensures EndpointsFor(idText, Source(e), [e]) == Ok([EdgeEndpoint(e, id)])
  {
    assert [e][1..] == [];
    assert Incident([e], Source(e)) == [e];
    EndpointsForValue(idText, Source(e), [e]);
    assert EdgeEndpoints([e], id) == [EdgeEndpoint(e, id)];
  }

  /** All endpoints of one node share the port `8000 + id`; the endpoint a
      given edge contributes differs between two nodes with different ids. */
  lemma EndpointPorts(idText: string, key: string, edges: seq<EdgeAttrs>)
    requires ParseInt(idText).Some?
    ensures EndpointsFor(idText, key, edges).Ok?
    ensures forall i :: 0 <= i < |EndpointsFor(idText, key, edges).value| ==>
      EndpointsFor(idText, key, edges).value[i].port == 8000 + ParseInt(idText).value
  {
    EndpointsForValue(idText, key, edges);
  }

  // ---- failure ----

  /** Every node that some edge touches has a numeric id text `int()`
      accepts. */
  ghost predicate IdsParse(nodes: Dict<string, Attrs>, edges: seq<EdgeAttrs>) {
    forall i :: 0 <= i < |nodes| && Incident(edges, nodes[i].0) != [] ==> ParseInt(IdText(nodes[i].1)).Some?
  }

  /** Both ends of every edge are node keys. */
  ghost predicate EndsAreNodes(nodes: Dict<string, Attrs>, edges: seq<EdgeAttrs>) {
    forall j :: 0 <= j < |edges| ==> Source(edges[j]) in Keys(nodes) && Target(edges[j]) in Keys(nodes)
  }

  /** The listen endpoints of a node are those of its own id text. */
  lemma ListenEndpointsOfEntry(nodes: Dict<string, Attrs>, edges: seq<EdgeAttrs>, i: nat)
    requires UniqueKeys(nodes) && i < |nodes|
    ensures ListenEndpoints(nodes[i].0, edges, nodes) == EndpointsFor(IdText(nodes[i].1), nodes[i].0, edges)
  {
    GetEntry(nodes, i);
  }

  /** The node loop over a prefix of the dictionary fails exactly when a
      node of that prefix has an edge and an id text `int()` rejects. */
  lemma {:induction false} NodeTableOutcome(entries: Dict<string, Attrs>, nodes: Dict<string, Attrs>,
                                            edges: seq<EdgeAttrs>, zid: string -> string)
    requires UniqueKeys(nodes) && |entries| <= |nodes| && entries == nodes[..|entries|]
    ensures NodeTable(entries, nodes, edges, zid).Ok? <==> IdsParse(entries, edges)
  {
    if |entries| > 0 {
      var n := |entries| - 1;
      var init := entries[..n];
      var last := entries[n];
      var lastParses := Incident(edges, last.0) != [] ==> ParseInt(IdText(last.1)).Some?;
      assert NodeTable(init, nodes, edges, zid).Ok? <==> IdsParse(init, edges) by {
        assert init == nodes[..n];
        NodeTableOutcome(init, nodes, edges, zid);
      }
      assert ListenEndpoints(last.0, edges, nodes).Ok? <==> lastParses by {
        assert last == nodes[n];
        ListenEndpointsOfEntry(nodes, edges, n);
      }
      assert IdsParse(entries, edges) <==> IdsParse(init, edges) && lastParses by {
        IdsParseSnoc(init, last, edges);
        assert entries == init + [last];
      }
      assert NodeTable(entries, nodes, edges, zid).Ok? <==>
        NodeTable(init, nodes, edges, zid).Ok? && ListenEndpoints(last.0, edges, nodes).Ok? by {
        NodeTableStep(entries, nodes, edges, zid);
      }
    }
  }

  lemma IdsParseSnoc(init: Dict<string, Attrs>, last: (string, Attrs), edges: seq<EdgeAttrs>)
    ensures IdsParse(init + [last], edges) <==>
      IdsParse(init, edges) && (Incident(edges, last.0) != [] ==> ParseInt(IdText(last.1)).Some?)
  {
    var entries := init + [last];
    assert forall i :: 0 <= i < |init| ==> entries[i] == init[i];
    assert entries[|init|] == last;
  }

  /** Once the node loop has succeeded, the recomputed endpoint lists of a
      link cannot fail: a link fails exactly when one of its ends is not a
      node. */
  lemma LinkOfOutcome(e: EdgeAttrs, nodes: Dict<string, Attrs>, edges: seq<EdgeAttrs>)
    requires UniqueKeys(nodes) && IdsParse(nodes, edges) && e in edges
    ensures LinkOf(e, nodes, edges).Ok? <==> Source(e) in Keys(nodes) && Target(e) in Keys(nodes)
  {
    if Source(e) in Keys(nodes) && Target(e) in Keys(nodes) {
      EndListens(Source(e), e, nodes, edges);
      EndListens(Target(e), e, nodes, edges);
    }
  }

  lemma EndListens(key: string, e: EdgeAttrs, nodes: Dict<string, Attrs>, edges: seq<EdgeAttrs>)
    requires UniqueKeys(nodes) && IdsParse(nodes, edges) && e in edges && Touches(e, key) && key in Keys(nodes)
    ensures ListenEndpoints(key, edges, nodes).Ok?
  {
    var i :| 0 <= i < |nodes| && Keys(nodes)[i] == key;
    ListenEndpointsOfEntry(nodes, edges, i);
    assert e in Incident(edges, key);
  }

  /** `generate_zenoh_config` raises exactly when a node that an edge
      touches has an id `int()` rejects (`ValueError`), or an edge end is
      not a node (`KeyError`). */
  lemma ZenohOutcome(g: Graph, experiment: string, volume: string, zid: string -> string)
    requires UniqueKeys(g.nodes)
    ensures GenerateZenoh(g, experiment, volume, zid).Ok? <==> IdsParse(g.nodes, g.edges) && EndsAreNodes(g.nodes, g.edges)
  {
    assert g.nodes[..|g.nodes|] == g.nodes;
    NodeTableOutcome(g.nodes, g.nodes, g.edges, zid);
    if IdsParse(g.nodes, g.edges) {
      forall j | 0 <= j < |g.edges|
        ensures LinkOf(g.edges[j], g.nodes, g.edges).Ok? <==>
          Source(g.edges[j]) in Keys(g.nodes) && Target(g.edges[j]) in Keys(g.nodes)
      {
        LinkOfOutcome(g.edges[j], g.nodes, g.edges);
      }
    }
  }

  /** `main` exits with status 1 exactly when a touched node's `id` is not
      an integer or an edge names a node that does not exist. */
  lemma ZenohExitStatus(g: Graph, experiment: string, volume: string, zid: string -> string)
    requires UniqueKeys(g.nodes)
    ensures ExitStatus(GenerateZenoh(g, experiment, volume, zid)) == 1 <==>
      !(IdsParse(g.nodes, g.edges) && EndsAreNodes(g.nodes, g.edges))
  {
    ZenohOutcome(g, experiment, volume, zid);
  }

  // ---- the node table ----

  /** No later entry has the numeric id text of entry `i`. */
  ghost predicate LastWithId(entries: Dict<string, Attrs>, i: nat)
    requires i < |entries|
  {
    forall j :: i < j < |entries| ==> IdText(entries[j].1) != IdText(entries[i].1)
  }

  /** Under a repeated numeric id text, the entry of the last node with that
      id is the one kept. */
  lemma {:induction false} NodeTableLastWins(entries: Dict<string, Attrs>, nodes: Dict<string, Attrs>,
                                             edges: seq<EdgeAttrs>, zid: string -> string, i: nat)
    requires NodeTable(entries, nodes, edges, zid).Ok?
    requires i < |entries| && LastWithId(entries, i)
    ensures ListenEndpoints(entries[i].0, edges, nodes).Ok?
    ensures Get(NodeTable(entries, nodes, edges, zid).value, IdText(entries[i].1)) ==
      Some(NodeEntry(entries[i].0, ListenEndpoints(entries[i].0, edges, nodes).value, zid))
  {
    var n := |entries| - 1;
    var init := entries[..n];
    var last := entries[n];
    var prior := NodeTable(init, nodes, edges, zid).value;
    var entry := NodeEntry(last.0, ListenEndpoints(last.0, edges, nodes).value, zid);
    NodeTableStep(entries, nodes, edges, zid);
    GetPut(prior, IdText(last.1), entry, IdText(entries[i].1));
    if i < n {
      assert forall j :: 0 <= j < n ==> init[j] == entries[j];
      NodeTableLastWins(init, nodes, edges, zid, i);
    }
  }

  /** With pairwise distinct numeric id texts, the node table lists every
      node, in dictionary order. */
  lemma {:induction false} NodeTableInOrder(entries: Dict<string, Attrs>, nodes: Dict<string, Attrs>,
                                            edges: seq<EdgeAttrs>, zid: string -> string)
    requires NodeTable(entries, nodes, edges, zid).Ok?
    requires forall i, j :: 0 <= i < j < |entries| ==> IdText(entries[i].1) != IdText(entries[j].1)
    ensures |NodeTable(entries, nodes, edges, zid).value| == |entries|
    ensures forall i :: 0 <= i < |entries| ==> InOrderAt(entries, nodes, edges, zid, NodeTable(entries, nodes, edges, zid).value, i)
  {
    if |entries| > 0 {
      var n := |entries| - 1;
      var init := entries[..n];
      assert IdText(entries[n].1) !in IdTexts(init);
      NodeTableAppends(entries, nodes, edges, zid);
      NodeTableInOrder(init, nodes, edges, zid);
      InOrderSnoc(entries, nodes, edges, zid, NodeTable(init, nodes, edges, zid).value);
    }
  }

  /** A last entry whose id text is new is appended to the table. */
  lemma NodeTableAppends(entries: Dict<string, Attrs>, nodes: Dict<string, Attrs>, edges: seq<EdgeAttrs>,
                         zid: string -> string)
    requires |entries| > 0 && NodeTable(entries, nodes, edges, zid).Ok?
    requires IdText(entries[|entries| - 1].1) !in IdTexts(entries[..|entries| - 1])
    ensures var init, last := entries[..|entries| - 1], entries[|entries| - 1];
      && NodeTable(init, nodes, edges, zid).Ok? && ListenEndpoints(last.0, edges, nodes).Ok?
      && NodeTable(entries, nodes, edges, zid).value ==
           NodeTable(init, nodes, edges, zid).value + [(IdText(last.1), NodeEntry(last.0, ListenEndpoints(last.0, edges, nodes).value, zid))]
  {
    var init, last := entries[..|entries| - 1], entries[|entries| - 1];
    NodeTableStep(entries, nodes, edges, zid);
    NodeTableKeys(init, nodes, edges, zid);
    PutAppends(NodeTable(init, nodes, edges, zid).value, IdText(last.1),
               NodeEntry(last.0, ListenEndpoints(last.0, edges, nodes).value, zid));
  }

  /** Position `i` of `table` is the entry of `entries[i]`. */
  ghost predicate InOrderAt(entries: Dict<string, Attrs>, nodes: Dict<string, Attrs>, edges: seq<EdgeAttrs>,
                            zid: string -> string, table: Dict<string, ZenohNode>, i: nat)
  {
    && i < |entries| && i < |table|
    && ListenEndpoints(entries[i].0, edges, nodes).Ok?
    && table[i] == (IdText(entries[i].1), NodeEntry(entries[i].0, ListenEndpoints(entries[i].0, edges, nodes).value, zid))
  }

  lemma InOrderSnoc(entries: Dict<string, Attrs>, nodes: Dict<string, Attrs>, edges: seq<EdgeAttrs>,
                    zid: string -> string, prior: Dict<string, ZenohNode>)
    requires |entries| == |prior| + 1
    requires forall i :: 0 <= i < |prior| ==> InOrderAt(entries[..|prior|], nodes, edges, zid, prior, i)
    requires ListenEndpoints(entries[|prior|].0, edges, nodes).Ok?
    ensures var last := entries[|prior|];
      forall i :: 0 <= i < |entries| ==>
        InOrderAt(entries, nodes, edges, zid,
          prior + [(IdText(last.1), NodeEntry(last.0, ListenEndpoints(last.0, edges, nodes).value, zid))], i)
  {
    var last := entries[|prior|];
    var table := prior + [(IdText(last.1), NodeEntry(last.0, ListenEndpoints(last.0, edges, nodes).value, zid))];
    forall i | 0 <= i < |entries|
      ensures InOrderAt(entries, nodes, edges, zid, table, i)
    {
      if i < |prior| {
        assert InOrderAt(entries[..|prior|], nodes, edges, zid, prior, i);
        assert entries[..|prior|][i] == entries[i];
        assert table[i] == prior[i];
      }
    }
  }

  /** The configuration's fixed fields, and its node table: one entry per
      distinct numeric id text, each a router whose `zid` is set to the
      hash of the node's key and whose endpoints are those of the last node
      carrying that id text. */
  lemma ZenohNodes(g: Graph, experiment: string, volume: string, zid: string -> string)
    requires UniqueKeys(g.nodes)
    requires GenerateZenoh(g, experiment, volume, zid).Ok?
    ensures var c := GenerateZenoh(g, experiment, volume, zid).value;
      && c.experiment == experiment && c.volume == volume
      && c.tag == "eclipse/zenoh:1.4.0" && !c.cleanFirst
      && UniqueKeys(c.nodes)
      && (forall k :: k in Keys(c.nodes) <==> k in IdTexts(g.nodes))
    ensures forall i :: 0 <= i < |g.nodes| && LastWithId(g.nodes, i) ==>
      && EndpointsFor(IdText(g.nodes[i].1), g.nodes[i].0, g.edges).Ok?
      && Get(GenerateZenoh(g, experiment, volume, zid).value.nodes, IdText(g.nodes[i].1)) ==
           Some(ZenohNode(Zid(true, zid(g.nodes[i].0)),
                          EndpointsFor(IdText(g.nodes[i].1), g.nodes[i].0, g.edges).value, "router"))
  {
    var table := NodeTable(g.nodes, g.nodes, g.edges, zid).value;
    assert GenerateZenoh(g, experiment, volume, zid).value.nodes == table;
    NodeTableKeys(g.nodes, g.nodes, g.edges, zid);
    forall i | 0 <= i < |g.nodes| && LastWithId(g.nodes, i)
      ensures EndpointsFor(IdText(g.nodes[i].1), g.nodes[i].0, g.edges).Ok?
      ensures Get(table, IdText(g.nodes[i].1)) ==
        Some(ZenohNode(Zid(true, zid(g.nodes[i].0)),
                       EndpointsFor(IdText(g.nodes[i].1), g.nodes[i].0, g.edges).value, "router"))
    {
      NodeTableLastWins(g.nodes, g.nodes, g.edges, zid, i);
      ListenEndpointsOfEntry(g.nodes, g.edges, i);
    }
  }

  // ---- links ----

  /** A link joins the numeric id texts of its two ends. */
  lemma LinkOfValue(e: EdgeAttrs, nodes: Dict<string, Attrs>, edges: seq<EdgeAttrs>)
    requires LinkOf(e, nodes, edges).Ok?
    ensures Get(nodes, Source(e)).Some? && Get(nodes, Target(e)).Some?
    ensures LinkOf(e, nodes, edges).value ==
      Link(IdText(Get(nodes, Source(e)).value), 0, IdText(Get(nodes, Target(e)).value), 0)
  {
  }

  /** One link per edge, in edge order, from the source's numeric id text
      to the target's, both with endpoint index 0. */
  lemma ZenohLinks(g: Graph, experiment: string, volume: string, zid: string -> string)
    requires GenerateZenoh(g, experiment, volume, zid).Ok?
    ensures var links := GenerateZenoh(g, experiment, volume, zid).value.links;
      && |links| == |g.edges|
      && forall j :: 0 <= j < |g.edges| ==>
           && Get(g.nodes, Source(g.edges[j])).Some? && Get(g.nodes, Target(g.edges[j])).Some?
           && links[j] == Link(IdText(Get(g.nodes, Source(g.edges[j])).value), 0,
                               IdText(Get(g.nodes, Target(g.edges[j])).value), 0)
  {
    var links := Links(g.edges, g.nodes, g.edges);
    assert links.Ok? && GenerateZenoh(g, experiment, volume, zid).value.links == links.value by {
      GenerateZenohParts(g, experiment, volume, zid);
    }
    forall j | 0 <= j < |g.edges|
      ensures Get(g.nodes, Source(g.edges[j])).Some? && Get(g.nodes, Target(g.edges[j])).Some?
      ensures links.value[j] == Link(IdText(Get(g.nodes, Source(g.edges[j])).value), 0,
                                     IdText(Get(g.nodes, Target(g.edges[j])).value), 0)
    {
      LinkOfValue(g.edges[j], g.nodes, g.edges);
    }
  }

  // ---- the JSON5 text ----

  lemma LastOfConcat(x: string, y: string)
    requires |y| > 0
    ensures (x + y)[|x + y| - 1] == y[|y| - 1]
  {
  }

  /** Removing the trailing commas with `rstrip(",")` leaves exactly the
      blocks joined by commas: the text is the header, the node blocks
      separated by `,`, the middle part, the link lines separated by `,`,
      and the footer. */
  lemma RenderJson5Joined(c: ZenohConfig)
    ensures RenderJson5(c) ==
      Header(c) + Join(NodeBlocks(c.nodes), ",") + Middle + Join(LinkLines(c.links), ",") + Footer
  {
    var blocks := NodeBlocks(c.nodes);
    var lines := LinkLines(c.links);
    forall i | 0 <= i < |blocks|
      ensures |blocks[i]| > 0 && blocks[i][|blocks[i]| - 1] != ','
    {
      var k, n := c.nodes[i].0, c.nodes[i].1;
      var body := "\n        \"" + k + "\": {\n"
        + "            zid: {set: true, value: \"" + n.zid.value + "\"},\n"
        + "            listen_endpoints: [\n"
        + "                " + Join(QuotedEndpoints(n.listen), EndpointSeparator) + "\n"
        + "            ],\n"
        + "            role: \"" + n.role + "\"\n";
      assert blocks[i] == body + "        }";
      LastOfConcat(body, "        }");
    }
    forall i | 0 <= i < |lines|
      ensures |lines[i]| > 0 && lines[i][|lines[i]| - 1] != ','
    {
      var l := c.links[i];
      var body := "\n        { a: \"" + l.a + "\", a_idx: " + NatToString(l.aIdx)
        + ", b: \"" + l.b + "\", b_idx: " + NatToString(l.bIdx);
      assert lines[i] == body + " }";
      LastOfConcat(body, " }");
    }
    var header := Header(c);
    var hbody := "{\n    experiment: \"" + c.experiment + "\",\n\n"
      + "    docker_image: {\n"
      + "        tag: \"" + c.tag + "\",\n"
      + "        clean_first: " + (if c.cleanFirst then "true" else "false") + "\n"
      + "    },\n\n"
      + "    volume: \"" + c.volume + "\",\n\n";
    assert header == hbody + "    nodes: {";
    LastOfConcat(hbody, "    nodes: {");
    assert "," == [','];
    TrailingSeparatorStripped(header, blocks, ',');
    var prefix := header + Join(blocks, ",") + Middle;
    LastOfConcat(header + Join(blocks, ","), Middle);
    TrailingSeparatorStripped(prefix, lines, ',');
  }
}
